=== FILE: README.md ===
# Calculator state machine

A Dafny model of the calculator in `src/fsm/Machine.ts`. The calculator is an
xstate machine with eight states: `initial`, `display_result`, and the six
`input_{first,second}_operand{,_decimal_pending,_with_unary}` states. Its context
holds two operands, a pending binary operator and the last result. Events are
the five kinds of `src/fsm/CalculatorEvent.ts`: NUMBER, DECIMAL, UNARY, BINARY
and EVALUATE.

The model is a total transition function, `CalculatorMachine.Step`, plus its
fold over an event list, `Run`. Everything else is proved about these two:

- the effect of each event in each state (`transitions.dfy`);
- an invariant of every reachable machine, and exactly when a transition
  throws (`invariants.dfy`);
- the chain theorem (`chaining.dfy`). Typing any well-formed chain
  `a1 op1 a2 op2 … an` and then EVALUATE shows the value of the chain
  evaluated strictly left to right, with no operator precedence;
- every case of `src/fsm/Machine.test.ts` as a lemma, plus some behaviour those
  tests do not cover (`scenarios.dfy`);
- two defects of the source, each as written and corrected (`findings.dfy`).

Digit entry is modelled as the source does it. To append a digit, the source
prints the operand's number with `toString`, appends the digit's text and reads
the result back with `Number(...)`. `DecimalText.Render` and
`DecimalText.ParseNumber` model those two conversions on exact decimals, and
the lemmas in `decimal_text.dfy` prove what the round trip computes.

Files:

- `options.dfy`: `Option`.
- `arith.dfy`: numbers, the unary operators and the binary operators.
- `decimal_text.dfy`: decimals, `toString`, `Number(...)`.
- `events.dfy`: the events.
- `machine.dfy`: context, states and transitions.
- `transitions.dfy`, `invariants.dfy`, `chaining.dfy`, `scenarios.dfy`,
  `findings.dfy`: the proofs listed above.

Behaviour of the code worth noting:

- `%` matches neither branch of the loop in `compute_operand`, so it leaves
  the value unchanged. It does not divide by 100.
- A DECIMAL whose guard is false changes nothing, state included.
- The context does not keep "operator present iff second operand present".
  BINARY from `initial` sets the operator and leaves the second operand
  absent.
- A second-operand BINARY resets the second operand to the initial operand
  (value 0). It does not clear it to absent.
- The first operand does not hold only typed values. After operator
  chaining it holds a computed result.

## Model

| member | source | states |
|---|---|---|
| Arith.Sqrt | src/fsm/Machine.ts:33-35 | `Math.sqrt`: NaN below zero; a finite result is a non-negative root of the argument; the result is finite whenever such a root exists |
| Arith.SqrtOfSquare | src/fsm/Machine.ts:33-35 | the square root of `y²` is `y` for every `y ≥ 0` |
| Arith.ApplyAllSnoc | src/fsm/Machine.ts:29-36 | the unary operators apply in list order: an operator added at the end applies to the value of all the earlier ones |
| Arith.ApplyAll | src/fsm/Machine.ts:29-36 | once an operand's value is NaN, no further unary operator makes it a number; only `√` can turn a number into NaN, so a list without `√` keeps a number a number |
| Arith.ApplyAllNonNegative | src/fsm/Machine.ts:29-36 | no sequence of unary operators turns a non-negative value negative |
| Arith.PercentIgnored | src/fsm/Machine.ts:29-36 | `%` is a no-op: an operand's value is the same with every `%` removed from its operator list |
| Arith.RepeatedSquaring | src/fsm/Machine.ts:30-31 | squaring `n` times raises the value to the power `2^n` |
| Arith.Apply | src/fsm/Machine.ts:41-57 | a binary operation is NaN when an operand is NaN, and NaN only then or for a zero divisor |
| DecimalText.Render | src/fsm/Machine.ts:73 | `toString` of an integer is the digit string of its value; with `s` fractional places it is a non-empty digit run, a point, and digits, the point sitting `s` digits from the end |
| DecimalText.ParseNumber | src/fsm/Machine.ts:73 | `Number(...)` is a number exactly for digits with at most one point other than the lone point; a digit string reads as the integer it spells; every number read has no trailing fractional zero |
| DecimalText.NatText | src/fsm/Machine.ts:73 | the `toString` text of an integer is a non-empty digit string whose value is that integer |
| DecimalText.NormalizeValue | src/fsm/Machine.ts:73 | dropping trailing fractional zeros, as `Number(...)` does, keeps the value `m / 10^s` |
| DecimalText.ParseDigits | src/fsm/Machine.ts:73 | `Number(...)` of a digit string is the integer it spells |
| DecimalText.ParseRender | src/fsm/Machine.ts:73 | `Number(x.toString())` gives back every canonical decimal `x` |
| DecimalText.ParseAppendDigit | src/fsm/Machine.ts:73 | `Number(x.toString() + d)` is `AppendedDigit(x, d)`: the digit becomes the numeral's last digit |
| DecimalText.AppendedDigitValue | src/fsm/Machine.ts:73 | appending `d` turns an integer `x` into `10x + d`, and a fraction with `s` places into `x + d/10^(s+1)` |
| DecimalText.ParseAppendFraction | src/fsm/Machine.ts:210 | `Number(x.toString() + "." + d)` reads as `x + d/10` for an integer `x`, and as not-a-number when `x` already has a point |
| DecimalText.AppendedFractionValue | src/fsm/Machine.ts:210 | a digit after the point adds `d/10`; a zero adds nothing and leaves an integer |
| DecimalText.PointInFraction | src/fsm/Machine.ts:210 | text with a second decimal point is not a number |
| CalculatorMachine.NaNTextIsNotANumber | src/fsm/Machine.ts:73 | `"NaN"` followed by any text is not a number, so a NaN operand stays NaN when digits are appended |
| CalculatorMachine.AppendDigit | src/fsm/Machine.ts:68-76 | a typed operand gains the digit as its last digit; a NaN operand stays NaN |
| CalculatorMachine.AppendFractionDigit | src/fsm/Machine.ts:205-213 | right after the point, an integer gains its first fractional digit; a value that already has a point, or NaN, becomes NaN |
| CalculatorMachine.ReduceOperand | src/fsm/Machine.ts:23-39 | an absent operand is 0; an operand without unary operators is its value; NaN stays NaN |
| CalculatorMachine.GetResult | src/fsm/Machine.ts:41-57 | with no operator the value is the first operand's, 0 when absent; an absent second operand counts as 0; the value is NaN exactly when an operand is NaN or a division by zero is pending |
| CalculatorMachine.AtRestShape | src/fsm/Machine.ts:150-180 | in `initial` and `display_result` no event throws and none touches the second operand; only EVALUATE shows a result; a digit starts a first operand holding it; BINARY starts the second operand against a first operand of 0 |
| CalculatorMachine.ComposingShape | src/fsm/Machine.ts:67-148 | in an input state an event throws exactly when its handler dereferences the absent operand it edits; every event but BINARY and EVALUATE keeps the slot, the operator and the other operand; UNARY enters the with-unary state; DECIMAL leaves the point flag set; a digit after a unary operator starts a fresh operand; BINARY moves to the second operand, folding the pending expression into the first when the second was being typed |
| CalculatorMachine.Step | src/fsm/Machine.ts:67-271 | only EVALUATE sets the result and reaches `display_result`; any other event that ends in `display_result` changes nothing; a throw happens only in an input state whose operand is absent |
| Transitions.EvaluateChangesOnlyResult | src/fsm/Machine.ts:59-65 | EVALUATE from any state shows `display_result` with the expression's value stored, and leaves operands and operator alone |
| Transitions.EvaluateIdempotent | src/fsm/Machine.ts:59-65 | pressing EVALUATE twice leaves the same machine as pressing it once |
| Transitions.DecimalGuard | src/fsm/Machine.ts:86-95 | DECIMAL changes nothing iff the operand already has its point; otherwise it sets the flag and enters the decimal-pending state |
| Transitions.DecimalIdempotent | src/fsm/Machine.ts:86-95 | a second DECIMAL after a first one that went through changes nothing, in every state |
| Transitions.DigitAfterUnaryRestarts | src/fsm/Machine.ts:219-227 | a digit after a unary operator starts a fresh operand holding that digit, with no point and no unary operators |
| Transitions.DigitAfterPoint | src/fsm/Machine.ts:205-213 | a digit right after the point adds `d/10` to an integer operand and keeps its flag and unary operators |
| Transitions.DigitAppends | src/fsm/Machine.ts:68-76 | in a plain input state a digit is appended to the operand's numeral, shifting an integer or extending a fraction, and the state is kept |
| Transitions.DigitAppendsStep | src/fsm/Machine.ts:68-76 | in a plain input state a digit keeps the state and replaces the operand's number by the numeral with the digit appended, keeping its flag and unary operators |
| Transitions.IntegerDigitValue | src/fsm/Machine.ts:73 | a digit appended to an integer `x` gives `10x + d` |
| Transitions.FractionDigitValue | src/fsm/Machine.ts:73 | a digit appended to a fraction with `s` places adds `d/10^(s+1)` |
| Transitions.BinaryChains | src/fsm/Machine.ts:136-146 | BINARY while the second operand is typed folds the expression into the first operand, resets the second to 0 and stores the new operator |
| Transitions.BinaryStartsSecondOperand | src/fsm/Machine.ts:96-101 | BINARY while the first operand is typed only stores the operator and moves to the second operand |
| Transitions.DisplayResultActsAsInitial | src/fsm/Machine.ts:265-269 | `display_result` reacts to every event but DECIMAL exactly as `initial` does, with the same context; DECIMAL leaves either state unchanged, since neither has a DECIMAL handler |
| Transitions.DigitAtRestTouchesOnlyFirst | src/fsm/Machine.ts:151-159 | a digit in `initial` or `display_result` replaces the first operand and keeps the operator, second operand and result |
| Transitions.BinaryAtRestKeepsSecond | src/fsm/Machine.ts:170-178 | BINARY in `initial` or `display_result` sets the first operand to 0 and stores the operator; the second operand is kept |
| Invariants.InitialInv | src/fsm/Machine.ts:185-190 | the initial machine satisfies the invariant |
| Invariants.AppendKeepsOk | src/fsm/Machine.ts:68-76 | appending a digit keeps a typed operand an exact canonical decimal, and an integer while it has no point |
| Invariants.FractionKeepsOk | src/fsm/Machine.ts:205-213 | a digit right after the point keeps the operand an exact canonical decimal |
| Invariants.StepPreservesInv | src/fsm/Machine.ts:191-270 | every transition that does not throw preserves the invariant |
| Invariants.ReachableInv | src/fsm/Machine.ts:182-271 | every machine reached from the start by any events satisfies the invariant |
| Invariants.ThrowsExactly | src/fsm/Machine.ts:117-135 | in a machine satisfying the invariant, a transition throws iff it is UNARY or DECIMAL, the machine is in the plain second-operand state, and no second operand exists yet (as right after the first BINARY) |
| Invariants.FirstOperandNeverThrows | src/fsm/Machine.ts:67-103 | no event throws in a first-operand state, `initial` or `display_result` |
| Invariants.TypedOperandsStayNumbers | src/fsm/Machine.ts:73 | in every reachable input state the operand being typed is a finite number, never NaN |
| Chaining.TypeDigits | src/fsm/Machine.ts:68-76 | typing digits into a fresh operand builds the integer they spell |
| Chaining.TypeUnaries | src/fsm/Machine.ts:77-85 | typing unary operators appends them to the operand's list and leaves its number alone |
| Chaining.TypeFraction | src/fsm/Machine.ts:205-213 | typing non-zero digits after the point builds the decimal they spell |
| Chaining.NumeralOfTerm | src/fsm/Machine.ts:73 | reading the typed text of a zero-free term as a number gives exactly the decimal the machine built |
| Chaining.TypeTerm | src/fsm/Machine.ts:67-103 | typing a whole zero-free term leaves the operand it spells in the active slot, with the term's value |
| Chaining.LinkStep | src/fsm/Machine.ts:136-146 | BINARY and one more zero-free term fold the value so far with the new term |
| Chaining.ChainComposed | src/fsm/Machine.ts:96-146 | after any typed chain of zero-free terms the pending expression's value is the chain's left-nested value |
| Chaining.ChainEvaluates | src/fsm/Machine.ts:59-65 | typing any chain of zero-free terms and then EVALUATE shows the chain evaluated strictly left to right |
| Chaining.EditRun | src/fsm/Machine.ts:67-148 | digits, points and unary operators typed in an input state never throw once the operand exists, stay in an input state of the same slot, touch only the operand being edited, and end in the with-unary state after a unary operator |
| Chaining.Overtype | src/fsm/Machine.ts:219-227 | any term with digits that ends in unary operators is discarded when a term starting with a digit is typed over it: the keys that follow run as if it had never been typed |
| Scenarios.OnePlusOne | src/fsm/Machine.test.ts:40-51 | `1 + 1 =` passes through the first- and second-operand states and shows 2 |
| Scenarios.OneEquals | src/fsm/Machine.test.ts:53-60 | `1` leaves the first-operand state, and `=` then shows 1 |
| Scenarios.EqualsAlone | src/fsm/Machine.test.ts:62-67 | `=` on a fresh calculator shows 0 |
| Scenarios.DecimalSum | src/fsm/Machine.test.ts:69-84 | `1.2` leaves the first-operand state, `+` the second-operand state, `1.1` keeps it, and `=` shows 2.3 |
| Scenarios.SquaredDecimalSum | src/fsm/Machine.test.ts:86-103 | `1.2 x²` leaves the first operand's with-unary state, `+` the second-operand state, `1.1 x²` the second operand's with-unary state, and `=` shows 2.65 |
| Scenarios.TwoTimesThree | src/fsm/Machine.test.ts:105-113 | `2 × 3 =` shows 6 |
| Scenarios.RepeatedSquare | src/fsm/Machine.test.ts:115-124 | `2 x² x² x²` waits in the with-unary state, and `=` then shows 256 |
| Scenarios.SquaresThenNewOperand | src/fsm/Machine.test.ts:126-138 | `2 x² x² x²` leaves the first operand's with-unary state, and `3 + 3 =` then shows 6 |
| Scenarios.TwoPlusTwoPlusTwo | src/fsm/Machine.test.ts:140-149 | `2 + 2 + 2 =` shows 6 |
| Scenarios.SquaredInTheMiddle | src/fsm/Machine.test.ts:151-162 | `2 + 2 x² x² + 2 =` shows 20 |
| Scenarios.SquareThenDigit | src/fsm/Machine.test.ts:164-173 | `3 x² 4 + 2 =` shows 6 |
| Scenarios.OvertypeSecond | src/fsm/Machine.ts:253-261 | after `a op`, any term with digits that ends in unary operators is discarded when a term starting with a digit is typed over it |
| Scenarios.SquareThenDigitInSecond | src/fsm/Machine.test.ts:175-186 | `1 + 3 x² 4 + 2 =` shows 7 |
| Scenarios.PointsIgnored | src/fsm/Machine.ts:94 | any number of points typed after the operand has its point are ignored |
| Scenarios.RedundantPoints | src/fsm/Machine.test.ts:188-203 | `2.2....3 + 3 =` shows 5.23 |
| Scenarios.NoPrecedence | src/fsm/Machine.ts:136-146 | `1 + 2 × 3 =` shows 9: no operator takes precedence |
| Scenarios.PercentLeavesValue | src/fsm/Machine.ts:29-36 | `5 % =` shows 5 |
| Scenarios.DivideByZero | src/fsm/Machine.ts:48-49 | `1 ÷ 0 =` shows the non-finite value |
| Scenarios.CrashAfterOperator | src/fsm/Machine.ts:117-135 | `1 + √` and `1 + .` throw |
| Scenarios.OperatorWithoutSecondOperand | src/fsm/Machine.ts:170-178 | `+` on a fresh calculator sets the operator while the second operand stays absent |
| Findings.ZeroAfterPointDropped | src/fsm/Machine.ts:205-213 | a zero typed right after the point leaves the number as it was |
| Findings.OnePointZeroFive | src/fsm/Machine.ts:205-213 | `1 . 0 5 =` shows 15 |
| Findings.MidFractionZeroLost | src/fsm/Machine.ts:68-76 | `1 . 5 0 5` enters 1.55: the zero after the 5 is lost by the plain append |
| Findings.OnePointFiveZeroFive | src/fsm/Machine.ts:68-76 | `1 . 5 0 5 =` shows 1.55 |
| Findings.EnterDigitValue | src/fsm/Machine.ts:205-213 | corrected entry: before the point a digit shifts the number; after it, the `k`-th fractional digit adds `d/10^k`, zero included |
| Findings.EnterWhole | src/fsm/Machine.ts:68-76 | corrected entry of digits without a point holds the integer they spell |
| Findings.EnterFraction | src/fsm/Machine.ts:205-213 | corrected entry after the point holds every fractional digit typed, zeros included |
| Findings.EntryReadsAsTyped | src/fsm/Machine.ts:205-213 | corrected entry holds exactly the number `Number(...)` reads from the text typed, for every digit sequence |
| Findings.WholeEntryReadsAsTyped | src/fsm/Machine.ts:68-76 | without a point, corrected entry holds exactly the integer `Number(...)` reads from the text typed |
| Findings.OnePointZeroFiveCorrected | src/fsm/Machine.ts:205-213 | corrected entry of `1 . 0 5` is 1.05 |
| Findings.OnePointFiveZeroFiveCorrected | src/fsm/Machine.ts:68-76 | corrected entry of `1 . 5 0 5` is 1.505 |
| Findings.OnePlusTwoEquals | src/fsm/Machine.ts:59-65 | `1 + 2 =` keeps both operands and the operator in the context next to the result |
| Findings.StaleOperatorAfterResult | src/fsm/Machine.ts:265-269 | `1 + 2 =` then `5 =` shows 7, not 5 |
| Findings.StaleSecondOperandAfterResult | src/fsm/Machine.ts:265-269 | `1 + 2 =` then `+ 3 =` shows 23, not 3 |
| Findings.RestartStep | src/fsm/Machine.ts:265-269 | corrected step: in `display_result` every event but EVALUATE leaves that state and keeps no second operand, no result, and no operator unless the event is BINARY. DECIMAL, ignored there as written, also clears the calculator |
| Findings.RestartAgrees | src/fsm/Machine.ts:182-271 | away from `display_result`, and until an EVALUATE, the corrected machine runs exactly as the machine as written |
| Findings.RestartForgets | src/fsm/Machine.ts:265-269 | corrected: after a result, a calculation that starts with something other than EVALUATE, and evaluates only at its end, runs as on a fresh calculator |
| Findings.RestartChainEvaluates | src/fsm/Machine.ts:265-269 | corrected: after any result, typing any chain of zero-free terms and EVALUATE shows that chain's left-to-right value |
| Findings.FiveAfterResultCorrected | src/fsm/Machine.ts:265-269 | corrected: after any result, `5 =` shows 5 |

## Left out

- The xstate library is not modelled. Its `createMachine`/`assign` semantics are written out as `Step`. Events a state has no handler for, and guards that fail, leave the machine unchanged. A `!` on an absent operand is the outcome `Throws`.
- IEEE-754 doubles: numbers are exact reals. For example `1.2 + 1.1` is exactly 2.3, and no rounding of any kind is modelled.
- Arith.Apply: a zero divisor gives NaN, where JavaScript gives an infinity (or NaN for `0 ÷ 0`). The model has no infinities. Arithmetic that follows an infinity is not modelled.
- Arith.Sqrt: it is a chosen root. Dafny's reals give no existence proof for irrational roots, so `Sqrt` is finite exactly where a root exists, and the model does not prove that every non-negative real has one.
- DecimalText.Render: `toString` is modelled for non-negative terminating decimals in positional form only. The exponent form JavaScript uses from 1e21 and below 1e-6 is not modelled.
- DecimalText.ParseNumber: `Number(...)` is modelled for digit strings with at most one point. Whitespace, signs, exponents, hexadecimal and `Infinity` never arise from digit entry and read as not-a-number.
- CalculatorMachine.AppendDigit: appending to a computed finite value (a chained result in the first operand) gives NaN. No state reachable from the start appends to such a value.
- Chaining.ChainEvaluates: the chain theorem covers terms whose fractional digits are all non-zero. A fractional zero is dropped when typed, because reading the text back as a number drops a trailing fractional zero. If nothing non-zero follows, the value is kept (`2 . 0 + 1 =` shows 3). If a non-zero digit follows, the value changes (the first two findings). Excluding zeros keeps every operand the numeral of its term; terms with zeros would need their own value definition.
- Chaining.LinkStep: stated for zero-free terms only, for the reason given under `Chaining.ChainEvaluates`.
- Chaining.ChainComposed: stated for chains of zero-free terms only, for the same reason.
- Chaining.TypeTerm: stated for zero-free terms only, for the same reason. A term such as `2 . 0`, whose value the source keeps, is not covered, and neither is `1 . 0 5`, which the source enters as 15 (the first finding).
- Chaining.NumeralOfTerm: stated for zero-free terms only, for the same reason.
- Findings.RestartChainEvaluates: stated for chains of zero-free terms only, as `Chaining.ChainEvaluates` is.
- The user interface, the key-to-event mapping and the test helpers in `src/fsm/Machine.test.ts` are not modelled. The test cases appear as lemmas.

## Findings

| source | as written | input that shows it | evidently intended | confidence | as-written member | corrected member |
|---|---|---|---|---|---|---|
| src/fsm/Machine.ts:205-213 | the first digit after the point is appended by reading back `value + "." + d`; `Number("1.0")` is 1, so a zero right after the point is lost and the next digit is appended to the integer | `1 . 0 5 =` shows 15 | the operand is 1.05, the number the keys spell | high (not executed) | Findings.OnePointZeroFive | Findings.EntryReadsAsTyped |
| src/fsm/Machine.ts:68-76 | every later digit is appended by reading back `value + d` (the second operand likewise at lines 107-116); `Number("1.50")` is 1.5, so a zero later in the fraction is lost | `1 . 5 0 5 =` shows 1.55 | the operand is 1.505, the number the keys spell | high (not executed) | Findings.OnePointFiveZeroFive | Findings.EntryReadsAsTyped |
| src/fsm/Machine.ts:265-269 | `display_result` reuses the transitions of `initial` but keeps the context, so the old operator and second operand stay in force | `1 + 2 = 5 =` shows 7; `1 + 2 = + 3 =` shows 23 | a calculation started after a result starts from an empty context: `5 =` shows 5 | medium (not executed) | Findings.StaleOperatorAfterResult | Findings.RestartChainEvaluates |

=== FILE: arith.dfy ===
/**
  The arithmetic the calculator performs on finished operands: the unary
  operators folded over an operand's value and the four binary operators.
  Numbers are exact reals; the one non-number value, NaN, stands for every
  result JavaScript would not give as a finite number.
*/
module Arith {

  /** A calculator number: a finite real or the not-a-number sentinel. */
  datatype Num = Finite(r: real) | NaN

  /** The payload of a UNARY event: `x²`, `√` and `%`. */
  datatype UnaryOp = Square | Root | Percent

  /** The payload of a BINARY event: `+`, `-`, `×` and `÷`. */
  datatype BinaryOp = Add | Subtract | Multiply | Divide

  predicate IsRoot(y: real, x: real) {
    0.0 <= y && y * y == x
  }

  /**
    `Math.sqrt`: the non-negative root of a non-negative number, NaN below
    zero. Dafny's reals give no existence proof for an irrational root, so
    the root is chosen wherever one exists and NaN is left for the rest.
  */
  ghost function Sqrt(x: real): (n: Num)
    ensures x < 0.0 ==> n == NaN
    ensures n.Finite? ==> IsRoot(n.r, x)
    ensures (exists y :: IsRoot(y, x)) ==> n.Finite?
  {
    if x < 0.0 then NaN
    else if exists y :: IsRoot(y, x) then Finite(var y :| IsRoot(y, x); y)
    else NaN
  }

  lemma ZeroProduct(a: real, b: real)
    requires a * b == 0.0
    ensures a == 0.0 || b == 0.0
  {
  }

  lemma RootUnique(y: real, z: real, x: real)
    requires IsRoot(y, x) && IsRoot(z, x)
    ensures y == z
  {
    assert (y - z) * (y + z) == y * y - z * z;
    ZeroProduct(y - z, y + z);
  }

  lemma SqrtOfSquare(y: real)
    requires 0.0 <= y
    ensures Sqrt(y * y) == Finite(y)
  {
    assert IsRoot(y, y * y);
    RootUnique(Sqrt(y * y).r, y, y * y);
  }

  /**
    One unary operator, as one iteration of the source's loop: `x²` squares,
    `√` takes the root and `%` matches neither branch, so it changes nothing.
  */
  ghost function ApplyUnary(v: Num, u: UnaryOp): Num {
    match v
    case NaN => NaN
    case Finite(x) =>
      match u
      case Square => Finite(x * x)
      case Root => Sqrt(x)
      case Percent => v
  }

  /**
    The unary operators applied in list order, the first one innermost.
    NaN absorbs every operator, and only `√` can turn a number into NaN.
  */
  ghost function ApplyAll(v: Num, us: seq<UnaryOp>): (r: Num)
    ensures v.NaN? ==> r.NaN?
    ensures v.Finite? && Root !in us ==> r.Finite?
    decreases |us|
  {
    if us == [] then v else ApplyAll(ApplyUnary(v, us[0]), us[1..])
  }

  /** No unary operator makes a non-negative value negative. */
  lemma {:induction false} ApplyAllNonNegative(x: real, us: seq<UnaryOp>)
    requires 0.0 <= x
    ensures ApplyAll(Finite(x), us).Finite? ==> 0.0 <= ApplyAll(Finite(x), us).r
    decreases |us|
  {
    if us != [] {
      var v := ApplyUnary(Finite(x), us[0]);
      if v.Finite? {
        assert 0.0 <= v.r;
        ApplyAllNonNegative(v.r, us[1..]);
      } else {
        assert ApplyAll(Finite(x), us).NaN?;
      }
    }
  }

  /** Applying a longer list applies the extra operator last. */
  lemma {:induction false} ApplyAllSnoc(v: Num, us: seq<UnaryOp>, u: UnaryOp)
    ensures ApplyAll(v, us + [u]) == ApplyUnary(ApplyAll(v, us), u)
    decreases |us|
  {
    if us == [] {
      assert [] + [u] == [u];
    } else {
      assert (us + [u])[1..] == us[1..] + [u];
      ApplyAllSnoc(ApplyUnary(v, us[0]), us[1..], u);
    }
  }

  function WithoutPercent(us: seq<UnaryOp>): (r: seq<UnaryOp>)
    ensures Percent !in r
    ensures forall u :: u in r <==> u in us && u != Percent
    ensures |r| <= |us|
  {
    if us == [] then []
    else if us[0] == Percent then WithoutPercent(us[1..])
    else [us[0]] + WithoutPercent(us[1..])
  }

  /** `%` leaves every operand as if it had never been pressed. */
  lemma {:induction false} PercentIgnored(v: Num, us: seq<UnaryOp>)
    ensures ApplyAll(v, us) == ApplyAll(v, WithoutPercent(us))
    decreases |us|
  {
    if us != [] {
      PercentIgnored(ApplyUnary(v, us[0]), us[1..]);
      if us[0] == Percent {
        assert ApplyUnary(v, Percent) == v;
        PercentIgnored(v, us[1..]);
      }
    }
  }

  function Squares(n: nat): (r: seq<UnaryOp>)
    ensures |r| == n
    ensures forall i :: 0 <= i < n ==> r[i] == Square
  {
    if n == 0 then [] else [Square] + Squares(n - 1)
  }

  function Power(x: real, k: nat): real {
    if k == 0 then 1.0 else x * Power(x, k - 1)
  }

  function Pow2(n: nat): (r: nat)
    ensures r >= 1
  {
    if n == 0 then 1 else 2 * Pow2(n - 1)
  }

  lemma {:induction false} PowerOfSquare(x: real, k: nat)
    ensures Power(x * x, k) == Power(x, 2 * k)
  {
    if k > 0 {
      PowerOfSquare(x, k - 1);
      assert Power(x, 2 * k) == x * (x * Power(x, 2 * (k - 1)));
    }
  }

  /** Squaring `n` times raises to the power `2^n`. */
  lemma {:induction false} RepeatedSquaring(x: real, n: nat)
    ensures ApplyAll(Finite(x), Squares(n)) == Finite(Power(x, Pow2(n)))
    decreases n
  {
    if n == 0 {
      assert Power(x, 1) == x;
    } else {
      assert Squares(n)[0] == Square && Squares(n)[1..] == Squares(n - 1);
      assert ApplyUnary(Finite(x), Square) == Finite(x * x);
      assert ApplyAll(Finite(x), Squares(n)) == ApplyAll(Finite(x * x), Squares(n - 1));
      RepeatedSquaring(x * x, n - 1);
      PowerOfSquare(x, Pow2(n - 1));
    }
  }

  /**
    A binary operator with its left operand first. NaN in, NaN out; a zero
    divisor gives NaN (JavaScript gives an infinity or NaN there).
  */
  function Apply(op: BinaryOp, a: Num, b: Num): (r: Num)
    ensures a.NaN? || b.NaN? ==> r.NaN?
    ensures r.NaN? ==> a.NaN? || b.NaN? || (op == Divide && b.r == 0.0)
  {
    if a.NaN? || b.NaN? then NaN
    else
      match op
      case Add => Finite(a.r + b.r)
      case Subtract => Finite(a.r - b.r)
      case Multiply => Finite(a.r * b.r)
      case Divide => if b.r == 0.0 then NaN else Finite(a.r / b.r)
  }
}

=== FILE: chaining.dfy ===
/**
  Operator chaining: the calculator evaluates strictly left to right, each
  BINARY folding what has been typed so far. The reference is an
  expression tree nested to the left, evaluated by the same arithmetic;
  the theorem says the machine's result for any typed chain is that tree's
  value.
*/
module Chaining {
  import opened Options
  import opened DecimalText
  import opened Arith
  import opened Events
  import opened CalculatorMachine

  /**
    One operand as typed: a non-empty run of digits, optionally a decimal
    point and fractional digits, then unary operators.
  */
  datatype Term = Term(digits: seq<Digit>, point: bool, fraction: seq<Digit>, unary: seq<UnaryOp>)

  /**
    The terms the chain theorem covers: fractional digits are non-zero.
    Every append reads the text back as a number, which drops a trailing
    fractional zero (`"1.0"` and `"1.50"` read as 1 and 1.5). A zero that
    stays last changes no value, but the operand the machine holds is then
    not the term's numeral, and a zero followed by a later non-zero digit
    changes the value. Excluding zeros keeps every operand the numeral of
    its term.
  */
  predicate ValidTerm(t: Term) {
    && |t.digits| > 0
    && (!t.point ==> t.fraction == [])
    && NoZero(t.fraction)
  }

  predicate NoZero(fs: seq<Digit>) {
    forall i :: 0 <= i < |fs| ==> fs[i] != 0
  }

  /** `a1 op1 a2 op2 ... an`, the operators and later terms as links. */
  datatype Link = Link(op: BinaryOp, term: Term)

  datatype Chain = Chain(head: Term, links: seq<Link>)

  predicate ValidChain(c: Chain) {
    ValidTerm(c.head) && forall i :: 0 <= i < |c.links| ==> ValidTerm(c.links[i].term)
  }

  // ----------------------------------------------------------------- events

  function Numbers(ds: seq<Digit>): (es: seq<Event>)
    ensures |es| == |ds|
  {
    if ds == [] then [] else Numbers(ds[..|ds| - 1]) + [Number(ds[|ds| - 1])]
  }

  function Unaries(us: seq<UnaryOp>): (es: seq<Event>)
    ensures |es| == |us|
  {
    if us == [] then [] else Unaries(us[..|us| - 1]) + [Unary(us[|us| - 1])]
  }

  function PointEvents(t: Term): seq<Event> {
    if t.point then [DecimalPoint] + Numbers(t.fraction) else []
  }

  function TermEvents(t: Term): seq<Event> {
    Numbers(t.digits) + PointEvents(t) + Unaries(t.unary)
  }

  function LinksEvents(ls: seq<Link>): seq<Event> {
    if ls == [] then []
    else LinksEvents(ls[..|ls| - 1]) + ([Binary(ls[|ls| - 1].op)] + TermEvents(ls[|ls| - 1].term))
  }

  function ChainEvents(c: Chain): seq<Event> {
    TermEvents(c.head) + LinksEvents(c.links)
  }

  // ----------------------------------------------------------------- reference

  function DigitsText(ds: seq<Digit>): (s: string)
    ensures |s| == |ds| && AllDigits(s)
  {
    if ds == [] then [] else DigitsText(ds[..|ds| - 1]) + [DigitChar(ds[|ds| - 1])]
  }

  /** The integer a run of digits spells, read as a numeral. */
  function DigitsNat(ds: seq<Digit>): nat {
    DigitsValue(DigitsText(ds))
  }

  /** The text the user typed for a term's number. */
  function TermText(t: Term): string {
    DigitsText(t.digits) + (if t.point then "." + DigitsText(t.fraction) else "")
  }

  /**
    A term's value: the decimal its digits spell (which is what its text
    reads as, by `NumeralOfTerm`), then its unary operators in order.
  */
  ghost function TermValue(t: Term): Num {
    ApplyAll(Finite(ToReal(TermDecimal(t))), t.unary)
  }

  /** An arithmetic expression tree over typed terms. */
  datatype Expr = Leaf(t: Term) | Node(op: BinaryOp, left: Expr, right: Expr)

  ghost function Eval(e: Expr): Num {
    match e
    case Leaf(t) => TermValue(t)
    case Node(op, l, r) => Apply(op, Eval(l), Eval(r))
  }

  /** `((a1 op1 a2) op2 a3) ...`: every operator binds what precedes it. */
  function LeftNested(c: Chain): Expr
    decreases |c.links|
  {
    if c.links == [] then Leaf(c.head)
    else
      var last := c.links[|c.links| - 1];
      Node(last.op, LeftNested(Chain(c.head, c.links[..|c.links| - 1])), Leaf(last.term))
  }

  // ----------------------------------------------------------------- runs

  lemma {:induction false} RunAppend(m: Machine, a: seq<Event>, b: seq<Event>)
    ensures Run(m, a + b) == match Run(m, a) { case Throws => Throws case Next(m') => Run(m', b) }
    decreases |a|
  {
    if a == [] {
      assert [] + b == b;
    } else {
      assert (a + b)[0] == a[0] && (a + b)[1..] == a[1..] + b;
      match Step(m, a[0])
      case Throws =>
      case Next(m') => RunAppend(m', a[1..], b);
    }
  }

  /**
    A machine about to receive the first digit of the operand in `slot`:
    at rest, right after a unary operator (the next digit starts over), or,
    for the second operand, right after the operator.
  */
  ghost predicate ReadyFor(m: Machine, slot: Slot) {
    || m.state == Input(slot, WithUnary)
    || (slot == First && (m.state == Initial || m.state == DisplayResult))
    || (slot == Second && m.state == Input(Second, Plain) && (m.ctx.second.None? || m.ctx.second == Some(InitialOperand)))
  }

  function Integer(n: nat, us: seq<UnaryOp>): Operand {
    Operand(Typed(Decimal(n, 0)), false, us)
  }

  lemma DigitsNatSnoc(ds: seq<Digit>, d: Digit)
    ensures DigitsNat(ds + [d]) == 10 * DigitsNat(ds) + d
  {
    assert (ds + [d])[..|ds|] == ds;
    CharValueOfDigitChar(d);
    DigitsValueSnoc(DigitsText(ds), DigitChar(d));
  }

  /** The first digit of an operand replaces whatever the slot held. */
  lemma FirstDigitStep(m: Machine, slot: Slot, d: Digit)
    requires ReadyFor(m, slot)
    ensures Step(m, Number(d)) == Next(Machine(Input(slot, Plain), WithActive(m.ctx, slot, Integer(d, []))))
  {
  }

  /** A later digit shifts the integer typed so far. */
  lemma NextDigitStep(ctx: Context, slot: Slot, k: nat, d: Digit)
    ensures Step(Machine(Input(slot, Plain), WithActive(ctx, slot, Integer(k, []))), Number(d))
         == Next(Machine(Input(slot, Plain), WithActive(ctx, slot, Integer(10 * k + d, []))))
  {
    var m1 := Machine(Input(slot, Plain), WithActive(ctx, slot, Integer(k, [])));
    assert AppendDigit(Typed(Decimal(k, 0)), d) == Typed(Decimal(10 * k + d, 0));
    assert WithActive(m1.ctx, slot, Integer(10 * k + d, [])) == WithActive(ctx, slot, Integer(10 * k + d, []));
  }

  /** Typing digits builds the integer they spell, in the operand of `slot`. */
  lemma {:induction false} TypeDigits(m: Machine, slot: Slot, ds: seq<Digit>)
    requires ReadyFor(m, slot) && |ds| > 0
    ensures Run(m, Numbers(ds)) ==
      Next(Machine(Input(slot, Plain), WithActive(m.ctx, slot, Integer(DigitsNat(ds), []))))
    decreases |ds|
  {
    var pre, d := ds[..|ds| - 1], ds[|ds| - 1];
    assert ds == pre + [d];
    assert Numbers(ds) == Numbers(pre) + [Number(d)];
    RunSnoc(m, Numbers(pre), Number(d));
    DigitsNatSnoc(pre, d);
    var k := DigitsNat(pre);
    assert DigitsNat(ds) == 10 * k + d;
    if pre == [] {
      assert Run(m, Numbers(pre)) == Next(m);
      FirstDigitStep(m, slot, d);
    } else {
      TypeDigits(m, slot, pre);
      NextDigitStep(m.ctx, slot, k, d);
    }
  }

  /** Typing unary operators appends them to the operand and leaves its value alone. */
  lemma {:induction false} TypeUnaries(m: Machine, us: seq<UnaryOp>)
    requires m.state.Input? && Active(m.ctx, m.state.slot).Some?
    ensures var slot, o := m.state.slot, Active(m.ctx, m.state.slot).value;
      Run(m, Unaries(us)) ==
        Next(Machine(Input(slot, if us == [] then m.state.mode else WithUnary),
                     WithActive(m.ctx, slot, o.(unaryOps := o.unaryOps + us))))
    decreases |us|
  {
    var slot, o := m.state.slot, Active(m.ctx, m.state.slot).value;
    if us == [] {
      assert o.unaryOps + us == o.unaryOps;
      assert WithActive(m.ctx, slot, o) == m.ctx;
    } else {
      var pre, u := us[..|us| - 1], us[|us| - 1];
      assert us == pre + [u];
      RunSnoc(m, Unaries(pre), Unary(u));
      TypeUnaries(m, pre);
      assert o.unaryOps + pre + [u] == o.unaryOps + us;
    }
  }

  /** The decimal `digits.fraction` with the point removed from the mantissa. */
  function FracDecimal(n: nat, fs: seq<Digit>): Decimal {
    Decimal(n * Pow10(|fs|) + DigitsNat(fs), |fs|)
  }

  lemma FracDecimalSnoc(n: nat, fs: seq<Digit>, d: Digit)
    ensures FracDecimal(n, fs + [d]) == Decimal(10 * FracDecimal(n, fs).mantissa + d, |fs| + 1)
  {
    DigitsNatSnoc(fs, d);
    var p := Pow10(|fs|);
    assert Pow10(|fs| + 1) == 10 * p;
    assert n * (10 * p) == 10 * (n * p);
  }

  /** A fraction whose digits are all non-zero ends in a non-zero digit, so its decimal is canonical. */
  lemma FracDecimalCanonical(n: nat, fs: seq<Digit>)
    requires NoZero(fs)
    ensures Canonical(FracDecimal(n, fs))
  {
    if fs != [] {
      var pre, d := fs[..|fs| - 1], fs[|fs| - 1];
      assert fs == pre + [d];
      FracDecimalSnoc(n, pre, d);
    }
  }

  lemma FracDecimalEmpty(n: nat)
    ensures FracDecimal(n, []) == Decimal(n, 0)
  {
    assert DigitsText([]) == [];
  }

  /** The first digit after the point becomes the first fractional digit. */
  lemma FirstFractionStep(ctx: Context, slot: Slot, n: nat, d: Digit)
    requires d != 0
    ensures Step(Machine(Input(slot, DecimalPending), WithActive(ctx, slot, Operand(Typed(Decimal(n, 0)), true, []))), Number(d)) ==
      Next(Machine(Input(slot, Plain), WithActive(ctx, slot, Operand(Typed(FracDecimal(n, [d])), true, []))))
  {
    FirstFractionValue(n, d);
  }

  lemma FirstFractionValue(n: nat, d: Digit)
    requires d != 0
    ensures AppendFractionDigit(Typed(Decimal(n, 0)), d) == Typed(FracDecimal(n, [d]))
  {
    FracDecimalEmpty(n);
    FracDecimalSnoc(n, [], d);
    FracDecimalCanonical(n, [d]);
    assert [] + [d] == [d];
  }

  /** A later fractional digit is appended after the ones typed so far. */
  lemma NextFractionStep(ctx: Context, slot: Slot, n: nat, pre: seq<Digit>, d: Digit)
    requires |pre| > 0 && NoZero(pre + [d])
    ensures Step(Machine(Input(slot, Plain), WithActive(ctx, slot, Operand(Typed(FracDecimal(n, pre)), true, []))), Number(d)) ==
      Next(Machine(Input(slot, Plain), WithActive(ctx, slot, Operand(Typed(FracDecimal(n, pre + [d])), true, []))))
  {
    assert NoZero(pre) by {
      forall i | 0 <= i < |pre| ensures pre[i] != 0 {
        assert (pre + [d])[i] == pre[i];
      }
    }
    assert d != 0 by { assert (pre + [d])[|pre|] == d; }
    FracDecimalCanonical(n, pre);
    FracDecimalCanonical(n, pre + [d]);
    FracDecimalSnoc(n, pre, d);
    var x := FracDecimal(n, pre);
    NormalizeCanonical(FracDecimal(n, pre + [d]));
    assert AppendedDigit(x, d) == FracDecimal(n, pre + [d]);
  }

  /**
    Fractional digits typed after the point: each is appended as the next
    fractional digit while none of them is zero.
  */
  lemma {:induction false} TypeFraction(ctx: Context, slot: Slot, n: nat, fs: seq<Digit>)
    requires NoZero(fs)
    ensures var m := Machine(Input(slot, DecimalPending), WithActive(ctx, slot, Operand(Typed(Decimal(n, 0)), true, [])));
      Run(m, Numbers(fs)) ==
        Next(Machine(Input(slot, if fs == [] then DecimalPending else Plain),
                     WithActive(ctx, slot, Operand(Typed(FracDecimal(n, fs)), true, []))))
    decreases |fs|
  {
    var m := Machine(Input(slot, DecimalPending), WithActive(ctx, slot, Operand(Typed(Decimal(n, 0)), true, [])));
    if fs == [] {
      FracDecimalEmpty(n);
    } else {
      var pre, d := fs[..|fs| - 1], fs[|fs| - 1];
      assert fs == pre + [d];
      assert Numbers(fs) == Numbers(pre) + [Number(d)];
      RunSnoc(m, Numbers(pre), Number(d));
      if pre == [] {
        assert d == fs[0];
        FirstFractionStep(ctx, slot, n, d);
      } else {
        assert NoZero(pre) by {
          forall i | 0 <= i < |pre| ensures pre[i] != 0 {
            assert fs[i] == pre[i];
          }
        }
        TypeFraction(ctx, slot, n, pre);
        NextFractionStep(ctx, slot, n, pre, d);
      }
    }
  }

  /** The decimal a valid term denotes. */
  function TermDecimal(t: Term): Decimal {
    FracDecimal(DigitsNat(t.digits), t.fraction)
  }

  /** The operand a valid term leaves behind. */
  function TermOperand(t: Term): Operand {
    Operand(Typed(TermDecimal(t)), t.point, t.unary)
  }

  lemma NumeralPlain(ds: seq<Digit>)
    requires |ds| > 0
    ensures ParseNumber(DigitsText(ds)) == Some(FracDecimal(DigitsNat(ds), []))
  {
    ParseDigits(DigitsText(ds));
    FracDecimalEmpty(DigitsNat(ds));
  }

  lemma NumeralDotted(ds: seq<Digit>, fs: seq<Digit>)
    requires |ds| > 0 && NoZero(fs)
    ensures ParseNumber(DigitsText(ds) + "." + DigitsText(fs)) == Some(FracDecimal(DigitsNat(ds), fs))
  {
    var whole, fraction := DigitsText(ds), DigitsText(fs);
    var x := FracDecimal(DigitsNat(ds), fs);
    FracDecimalCanonical(DigitsNat(ds), fs);
    NormalizeCanonical(x);
    ParseDotted(whole, fraction);
    ParsePartsOf(whole, fraction, x.mantissa);
  }

  /** Reading what was typed as a numeral gives the decimal the machine builds. */
  lemma NumeralOfTerm(t: Term)
    requires ValidTerm(t)
    ensures ParseNumber(TermText(t)) == Some(TermDecimal(t))
  {
    if t.point {
      assert TermText(t) == DigitsText(t.digits) + "." + DigitsText(t.fraction);
      NumeralDotted(t.digits, t.fraction);
    } else {
      assert TermText(t) == DigitsText(t.digits) + "";
      assert DigitsText(t.digits) + "" == DigitsText(t.digits);
      NumeralPlain(t.digits);
    }
  }

  /** The input state a term leaves the machine in. */
  function TermMode(t: Term): Mode {
    if t.unary != [] then WithUnary
    else if t.point && t.fraction == [] then DecimalPending
    else Plain
  }

  /**
    A typed term leaves its operand in the slot it was typed into, whatever
    that slot held, and the operand reduces to the term's value.
  */
  lemma TypeTerm(m: Machine, slot: Slot, t: Term)
    requires ReadyFor(m, slot) && ValidTerm(t)
    ensures Run(m, TermEvents(t)) == Next(Machine(Input(slot, TermMode(t)), WithActive(m.ctx, slot, TermOperand(t))))
    ensures ReduceOperand(Some(TermOperand(t))) == TermValue(t)
  {
    var n := DigitsNat(t.digits);
    TypeDigits(m, slot, t.digits);
    var m1 := Machine(Input(slot, Plain), WithActive(m.ctx, slot, Integer(n, [])));
    RunAppend(m, Numbers(t.digits), PointEvents(t));
    var m2: Machine;
    if t.point {
      var mp := Machine(Input(slot, DecimalPending), WithActive(m.ctx, slot, Operand(Typed(Decimal(n, 0)), true, [])));
      assert Step(m1, DecimalPoint) == Next(mp);
      RunAppend(m1, [DecimalPoint], Numbers(t.fraction));
      TypeFraction(m.ctx, slot, n, t.fraction);
      m2 := Machine(Input(slot, if t.fraction == [] then DecimalPending else Plain),
                    WithActive(m.ctx, slot, Operand(Typed(TermDecimal(t)), true, [])));
    } else {
      FracDecimalEmpty(n);
      m2 := m1;
    }
    assert Run(m, Numbers(t.digits) + PointEvents(t)) == Next(m2);
    RunAppend(m, Numbers(t.digits) + PointEvents(t), Unaries(t.unary));
    TypeUnaries(m2, t.unary);
    assert [] + t.unary == t.unary;
  }

  /** A machine that has typed part of a chain whose value so far is `v`. */
  ghost predicate Composed(m: Machine, v: Num) {
    && m.state.Input?
    && GetResult(m.ctx) == v
    && (m.state.slot == First ==> m.ctx.second.None? && m.ctx.operator.None?)
  }

  /** BINARY and one more term fold the value so far with the new term. */
  lemma LinkStep(m: Machine, v: Num, l: Link)
    requires Composed(m, v) && ValidTerm(l.term)
    ensures Run(m, [Binary(l.op)] + TermEvents(l.term)).Next?
    ensures Composed(Run(m, [Binary(l.op)] + TermEvents(l.term)).m, Apply(l.op, v, TermValue(l.term)))
  {
    var m1 := Step(m, Binary(l.op)).m;
    assert Run(m, [Binary(l.op)]) == Next(m1);
    RunAppend(m, [Binary(l.op)], TermEvents(l.term));
    assert ReduceOperand(m1.ctx.first) == v && m1.ctx.operator == Some(l.op);
    TypeTerm(m1, Second, l.term);
  }

  lemma {:induction false} ChainComposed(c: Chain)
    requires ValidChain(c)
    ensures Run(InitialMachine, ChainEvents(c)).Next?
    ensures Composed(Run(InitialMachine, ChainEvents(c)).m, Eval(LeftNested(c)))
    decreases |c.links|
  {
    if c.links == [] {
      ChainSingle(c.head);
      TypeTerm(InitialMachine, First, c.head);
    } else {
      var ls, last := c.links[..|c.links| - 1], c.links[|c.links| - 1];
      var pre := Chain(c.head, ls);
      PrefixValid(c);
      ChainComposed(pre);
      assert ls + [last] == c.links;
      ChainSnoc(c.head, ls, last);
      RunAppend(InitialMachine, ChainEvents(pre), [Binary(last.op)] + TermEvents(last.term));
      LinkStep(Run(InitialMachine, ChainEvents(pre)).m, Eval(LeftNested(pre)), last);
    }
  }

  /** Dropping a valid chain's last link leaves a valid chain. */
  lemma PrefixValid(c: Chain)
    requires ValidChain(c) && c.links != []
    ensures ValidChain(Chain(c.head, c.links[..|c.links| - 1]))
    ensures ValidTerm(c.links[|c.links| - 1].term)
  {
    var pre := Chain(c.head, c.links[..|c.links| - 1]);
    forall i | 0 <= i < |pre.links|
      ensures ValidTerm(pre.links[i].term)
    {
      assert pre.links[i] == c.links[i];
    }
  }

  /**
    Left-to-right evaluation: typing a chain and EVALUATE shows the value of
    the chain's left-nested expression tree. No operator takes precedence.
  */
  lemma ChainEvaluates(c: Chain)
    requires ValidChain(c)
    ensures Run(InitialMachine, ChainEvents(c) + [Evaluate]).Next?
    ensures var m := Run(InitialMachine, ChainEvents(c) + [Evaluate]).m;
      m.state == DisplayResult && m.ctx.result == Some(Eval(LeftNested(c)))
  {
    ChainComposed(c);
    RunSnoc(InitialMachine, ChainEvents(c), Evaluate);
  }

  // ----------------------------------------------------------------- typing over

  /** The events that edit the operand being typed and never leave its slot. */
  predicate Editing(e: Event) {
    e.Number? || e.DecimalPoint? || e.Unary?
  }

  lemma {:induction false} NumbersAt(ds: seq<Digit>)
    ensures forall i :: 0 <= i < |ds| ==> Numbers(ds)[i] == Number(ds[i])
    decreases |ds|
  {
    if ds != [] {
      NumbersAt(ds[..|ds| - 1]);
    }
  }

  lemma {:induction false} UnariesAt(us: seq<UnaryOp>)
    ensures forall i :: 0 <= i < |us| ==> Unaries(us)[i] == Unary(us[i])
    decreases |us|
  {
    if us != [] {
      UnariesAt(us[..|us| - 1]);
    }
  }

  /** Every key of `es` edits the operand. */
  predicate AllEditing(es: seq<Event>) {
    forall i :: 0 <= i < |es| ==> Editing(es[i])
  }

  lemma EditingConcat(a: seq<Event>, b: seq<Event>)
    requires AllEditing(a) && AllEditing(b)
    ensures AllEditing(a + b)
  {
    forall i | 0 <= i < |a + b| ensures Editing((a + b)[i]) {
      if i >= |a| {
        assert (a + b)[i] == b[i - |a|];
      }
    }
  }

  lemma PointEventsEditing(t: Term)
    ensures AllEditing(PointEvents(t))
  {
    if t.point {
      NumbersAt(t.fraction);
      EditingConcat([DecimalPoint], Numbers(t.fraction));
    }
  }

  /** Every key of a term edits the operand, whatever its digits. */
  lemma TermEventsEditing(t: Term)
    ensures AllEditing(TermEvents(t))
  {
    NumbersAt(t.digits);
    UnariesAt(t.unary);
    PointEventsEditing(t);
    EditingConcat(Numbers(t.digits), PointEvents(t));
    EditingConcat(Numbers(t.digits) + PointEvents(t), Unaries(t.unary));
  }

  /** A term's first key is its first digit. */
  lemma TermEventsFirst(t: Term)
    requires |t.digits| > 0
    ensures |TermEvents(t)| > 0 && TermEvents(t)[0] == Number(t.digits[0])
  {
    NumbersAt(t.digits);
  }

  /** A term with unary operators ends with its last one, after at least one digit. */
  lemma TermEventsLast(t: Term)
    requires |t.digits| > 0 && t.unary != []
    ensures |TermEvents(t)| >= 2
    ensures TermEvents(t)[|TermEvents(t)| - 1] == Unary(t.unary[|t.unary| - 1])
  {
    UnariesAt(t.unary);
    var es := TermEvents(t);
    assert es[|es| - 1] == Unaries(t.unary)[|t.unary| - 1];
  }

  /** One editing key keeps the machine typing in the same slot, and a unary operator leaves it in the with-unary mode. */
  lemma EditStep(c: Context, slot: Slot, mode: Mode, o: Operand, e: Event) returns (mode': Mode, o': Operand)
    requires Editing(e)
    ensures Step(Machine(Input(slot, mode), WithActive(c, slot, o)), e) == Next(Machine(Input(slot, mode'), WithActive(c, slot, o')))
    ensures e.Unary? ==> mode' == WithUnary
  {
    match e
    case Number(d) =>
      mode' := Plain;
      o' := if mode == WithUnary then DigitOperand(d)
            else if mode == DecimalPending then o.(value := AppendFractionDigit(o.value, d))
            else o.(value := AppendDigit(o.value, d));
    case Unary(u) =>
      mode', o' := WithUnary, o.(unaryOps := o.unaryOps + [u]);
    case DecimalPoint =>
      if o.hasDecimal {
        mode', o' := mode, o;
      } else {
        mode', o' := DecimalPending, o.(hasDecimal := true);
      }
  }

  /** Any run of editing keys keeps the machine typing in the same slot, the rest of the context untouched. */
  lemma {:induction false} EditRun(c: Context, slot: Slot, mode: Mode, o: Operand, es: seq<Event>) returns (mode': Mode, o': Operand)
    requires AllEditing(es)
    ensures Run(Machine(Input(slot, mode), WithActive(c, slot, o)), es) == Next(Machine(Input(slot, mode'), WithActive(c, slot, o')))
    ensures es != [] && es[|es| - 1].Unary? ==> mode' == WithUnary
    decreases |es|
  {
    if es == [] {
      mode', o' := mode, o;
    } else {
      var mode1, o1 := EditStep(c, slot, mode, o, es[0]);
      assert forall i :: 0 <= i < |es[1..]| ==> Editing(es[1..][i]) by {
        forall i | 0 <= i < |es[1..]| ensures Editing(es[1..][i]) {
          assert es[1..][i] == es[i + 1];
        }
      }
      mode', o' := EditRun(c, slot, mode1, o1, es[1..]);
      if |es| > 1 {
        assert es[1..][|es[1..]| - 1] == es[|es| - 1];
      }
    }
  }

  /**
    A term that ends in unary operators is discarded when the next term is
    typed over it, whatever digits and point either term holds: the next
    digit starts a fresh operand.
  */
  lemma Overtype(m: Machine, slot: Slot, t1: Term, t2: Term, rest: seq<Event>)
    requires ReadyFor(m, slot) && |t1.digits| > 0 && t1.unary != [] && |t2.digits| > 0
    ensures Run(m, TermEvents(t1) + TermEvents(t2) + rest) == Run(m, TermEvents(t2) + rest)
  {
    var es1, es2 := TermEvents(t1), TermEvents(t2) + rest;
    TermEventsEditing(t1);
    TermEventsFirst(t1);
    TermEventsLast(t1);
    TermEventsFirst(t2);
    FirstDigitStep(m, slot, t1.digits[0]);
    var m1 := Machine(Input(slot, Plain), WithActive(m.ctx, slot, Integer(t1.digits[0], [])));
    assert Run(m, es1) == Run(m1, es1[1..]);
    assert forall i :: 0 <= i < |es1[1..]| ==> Editing(es1[1..][i]) by {
      forall i | 0 <= i < |es1[1..]| ensures Editing(es1[1..][i]) {
        assert es1[1..][i] == es1[i + 1];
      }
    }
    var mode', o' := EditRun(m.ctx, slot, Plain, Integer(t1.digits[0], []), es1[1..]);
    assert es1[1..][|es1[1..]| - 1] == es1[|es1| - 1];
    var m2 := Machine(Input(slot, WithUnary), WithActive(m.ctx, slot, o'));
    assert Run(m, es1) == Next(m2);
    assert es1 + TermEvents(t2) + rest == es1 + es2;
    RunAppend(m, es1, es2);
    assert es2[0] == Number(t2.digits[0]);
    FirstDigitStep(m, slot, t2.digits[0]);
    assert Step(m2, Number(t2.digits[0])) == Step(m, Number(t2.digits[0]));
  }

  /** The events and the expression of a chain with one more link. */
  lemma ChainSnoc(h: Term, ls: seq<Link>, l: Link)
    ensures ChainEvents(Chain(h, ls + [l])) == ChainEvents(Chain(h, ls)) + ([Binary(l.op)] + TermEvents(l.term))
    ensures LeftNested(Chain(h, ls + [l])) == Node(l.op, LeftNested(Chain(h, ls)), Leaf(l.term))
  {
    assert (ls + [l])[..|ls|] == ls;
  }

  lemma ChainSingle(h: Term)
    ensures ChainEvents(Chain(h, [])) == TermEvents(h)
    ensures LeftNested(Chain(h, [])) == Leaf(h)
  {
    assert TermEvents(h) + [] == TermEvents(h);
  }
}

=== FILE: decimal_text.dfy ===
/**
  Exact decimal numbers and the two JavaScript conversions the calculator
  relies on when a digit is typed: `Number.prototype.toString` (Render) and
  `Number(string)` (ParseNumber). The source appends a digit by rendering the
  current value, appending text and parsing the result again; this module
  gives both conversions and proves what that round trip computes.
*/
module DecimalText {
  import opened Options

  /** A decimal digit, the payload of a NUMBER event. */
  type Digit = d: int | 0 <= d < 10

  function Pow10(n: nat): (r: nat)
    ensures r >= 1
  {
    if n == 0 then 1 else 10 * Pow10(n - 1)
  }

  /** The terminating decimal `mantissa / 10^scale`. */
  datatype Decimal = Decimal(mantissa: nat, scale: nat)

  /** The form `toString` prints: no trailing zero after the decimal point. */
  predicate Canonical(x: Decimal) {
    x.scale == 0 || x.mantissa % 10 != 0
  }

  function ToReal(x: Decimal): real {
    x.mantissa as real / Pow10(x.scale) as real
  }

  /** Drops trailing fractional zeros, as parsing a numeral does. */
  function Normalize(m: nat, s: nat): (x: Decimal)
    ensures Canonical(x)
    ensures x.scale <= s
    decreases s
  {
    if s > 0 && m % 10 == 0 then
      Normalize(m / 10, s - 1)
    else
      Decimal(m, s)
  }

  lemma CancelTen(q: nat, p: nat)
    requires p >= 1
    ensures (10 * q) as real / (10 * p) as real == q as real / p as real
  {
  }

  lemma DropTrailingZero(m: nat, s: nat)
    requires s > 0 && m % 10 == 0
    ensures (m / 10) as real / Pow10(s - 1) as real == m as real / Pow10(s) as real
  {
    var q, p := m / 10, Pow10(s - 1);
    assert m == 10 * q;
    assert Pow10(s) == 10 * p;
    CancelTen(q, p);
  }

  /** Dropping trailing zeros keeps the number. */
  lemma {:induction false} NormalizeValue(m: nat, s: nat)
    ensures ToReal(Normalize(m, s)) == m as real / Pow10(s) as real
    decreases s
  {
    if s > 0 && m % 10 == 0 {
      NormalizeValue(m / 10, s - 1);
      DropTrailingZero(m, s);
    }
  }

  lemma NormalizeCanonical(x: Decimal)
    requires Canonical(x)
    ensures Normalize(x.mantissa, x.scale) == x
  {
  }

  // ---------------------------------------------------------------- characters

  predicate IsDigitChar(c: char) {
    '0' <= c <= '9'
  }

  function DigitChar(d: Digit): (c: char)
    ensures IsDigitChar(c)
  {
    ('0' as int + d) as char
  }

  function CharValue(c: char): Digit
    requires IsDigitChar(c)
  {
    c as int - '0' as int
  }

  lemma CharValueOfDigitChar(d: Digit)
    ensures CharValue(DigitChar(d)) == d
  {
  }

  predicate AllDigits(s: string) {
    forall i :: 0 <= i < |s| ==> IsDigitChar(s[i])
  }

  /** The value of a string of decimal digits, most significant first. */
  function DigitsValue(s: string): nat
    requires AllDigits(s)
    decreases |s|
  {
    if s == [] then 0 else 10 * DigitsValue(s[..|s| - 1]) + CharValue(s[|s| - 1])
  }

  lemma DigitsValueSnoc(s: string, c: char)
    requires AllDigits(s) && IsDigitChar(c)
    ensures AllDigits(s + [c])
    ensures DigitsValue(s + [c]) == 10 * DigitsValue(s) + CharValue(c)
  {
    assert (s + [c])[..|s|] == s;
  }

  /** Shortest decimal text of a natural number. */
  function NatText(n: nat): (s: string)
    ensures |s| > 0 && AllDigits(s)
    ensures DigitsValue(s) == n
  {
    if n < 10 then
      CharValueOfDigitChar(n);
      assert [DigitChar(n)][..0] == [];
      [DigitChar(n)]
    else
      var prefix := NatText(n / 10);
      CharValueOfDigitChar(n % 10);
      DigitsValueSnoc(prefix, DigitChar(n % 10));
      prefix + [DigitChar(n % 10)]
  }

  /** Exactly `width` digits of `n`, with leading zeros: a fractional part. */
  function PadText(n: nat, width: nat): (s: string)
    requires n < Pow10(width)
    ensures |s| == width && AllDigits(s)
    ensures DigitsValue(s) == n
  {
    if width == 0 then
      []
    else
      var prefix := PadText(n / 10, width - 1);
      CharValueOfDigitChar(n % 10);
      DigitsValueSnoc(prefix, DigitChar(n % 10));
      prefix + [DigitChar(n % 10)]
  }

  /**
    `Number.prototype.toString` on a non-negative terminating decimal: the
    digits of the mantissa, with a point `scale` digits from the end when
    there is a fractional part.
  */
  function Render(x: Decimal): (s: string)
    ensures |s| > x.scale
    ensures x.scale == 0 ==> AllDigits(s) && DigitsValue(s) == x.mantissa
    ensures x.scale > 0 ==>
      var k := |s| - x.scale - 1;
      && s[k] == '.'
      && k > 0 && AllDigits(s[..k]) && AllDigits(s[k + 1..])
  {
    if x.scale == 0 then
      NatText(x.mantissa)
    else
      var p := Pow10(x.scale);
      ModBound(x.mantissa, p);
      NatText(x.mantissa / p) + "." + PadText(x.mantissa % p, x.scale)
  }

  /** Index of the first decimal point, or `|s|` when there is none. */
  function PointIndex(s: string): (i: nat)
    ensures i <= |s|
    ensures i < |s| ==> s[i] == '.'
    ensures forall j :: 0 <= j < i ==> s[j] != '.'
  {
    if s == [] then 0 else if s[0] == '.' then 0 else 1 + PointIndex(s[1..])
  }

  /** The number `whole.fraction`, or NaN when either part is not all digits or both are empty. */
  function ParseParts(whole: string, fraction: string): Option<Decimal> {
    if AllDigits(whole) && AllDigits(fraction) && |whole| + |fraction| > 0 then
      Some(Normalize(DigitsValue(whole) * Pow10(|fraction|) + DigitsValue(fraction), |fraction|))
    else
      None
  }

  /**
    The decimal two digit runs denote, for a mantissa already worked out.
    The mantissa is a parameter so that callers can prove its value apart,
    which keeps the nonlinear arithmetic out of `Normalize`'s argument.
  */
  lemma ParsePartsOf(whole: string, fraction: string, a: nat)
    requires AllDigits(whole) && AllDigits(fraction) && |whole| + |fraction| > 0
    requires a == DigitsValue(whole) * Pow10(|fraction|) + DigitsValue(fraction)
    ensures ParseParts(whole, fraction) == Some(Normalize(a, |fraction|))
  {
  }

  /**
    Digits with at most one point, other than the lone point. The empty
    string is one: `Number("")` is 0.
  */
  predicate Numeral(s: string) {
    && (forall i :: 0 <= i < |s| ==> IsDigitChar(s[i]) || s[i] == '.')
    && (forall i, j :: 0 <= i < j < |s| && s[i] == '.' ==> s[j] != '.')
    && s != "."
  }

  /** A numeral is a digit run, or two digit runs around its first point. */
  lemma NumeralSplit(s: string)
    ensures var i := PointIndex(s);
      Numeral(s) <==>
        if i == |s| then AllDigits(s)
        else AllDigits(s[..i]) && AllDigits(s[i + 1..]) && |s| > 1
  {
    var i := PointIndex(s);
    if i < |s| {
      if Numeral(s) {
        assert s != [s[i]];
        var t := s[i + 1..];
        forall j | 0 <= j < |t|
          ensures IsDigitChar(t[j])
        {
          assert t[j] == s[i + 1 + j];
        }
      }
      if AllDigits(s[..i]) && AllDigits(s[i + 1..]) && |s| > 1 {
        forall j | 0 <= j < |s| && j != i
          ensures IsDigitChar(s[j])
        {
          if j < i {
            assert s[..i][j] == s[j];
          } else {
            assert s[i + 1..][j - i - 1] == s[j];
          }
        }
      }
    }
  }

  /**
    `Number(s)` for decimal numerals: digits, optionally one point and more
    digits. Every other string is not a number (None stands for NaN).
  */
  function ParseNumber(s: string): (r: Option<Decimal>)
    ensures r.Some? <==> Numeral(s)
    ensures AllDigits(s) ==> r == Some(Decimal(DigitsValue(s), 0))
    ensures r.Some? ==> Canonical(r.value)
  {
    NumeralSplit(s);
    var i := PointIndex(s);
    if i == |s| then
      if AllDigits(s) then Some(Decimal(DigitsValue(s), 0)) else None
    else
      ParseParts(s[..i], s[i + 1..])
  }

  // ---------------------------------------------------------------- round trips

  lemma {:induction false} PointIndexOfDigits(a: string, rest: string)
    requires AllDigits(a)
    ensures PointIndex(a + rest) == |a| + PointIndex(rest)
    decreases |a|
  {
    if a != [] {
      assert (a + rest)[1..] == a[1..] + rest;
      PointIndexOfDigits(a[1..], rest);
    } else {
      assert a + rest == rest;
    }
  }

  /** A string of digits alone parses as the integer it spells. */
  lemma ParseDigits(s: string)
    requires AllDigits(s)
    ensures ParseNumber(s) == Some(Decimal(DigitsValue(s), 0))
  {
    PointIndexOfDigits(s, "");
    assert s + "" == s;
  }

  /** `whole + "." + fraction` parses by splitting at the point it contains. */
  lemma ParseDotted(whole: string, fraction: string)
    requires AllDigits(whole)
    ensures ParseNumber(whole + "." + fraction) == ParseParts(whole, fraction)
  {
    var s := whole + "." + fraction;
    PointIndexOfDigits(whole, "." + fraction);
    assert s == whole + ("." + fraction);
    assert s[..|whole|] == whole;
    assert s[|whole| + 1..] == fraction;
  }

  lemma ModBound(m: nat, p: nat)
    requires p >= 1
    ensures 0 <= m / p && 0 <= m % p < p
  {
  }

  lemma DivModSum(m: nat, p: nat)
    requires p >= 1
    ensures (m / p) * p + m % p == m
  {
  }

  /** The rendering of a fractional decimal, cut at its point. */
  lemma RenderParts(x: Decimal) returns (whole: string, fraction: string)
    requires x.scale > 0
    ensures Render(x) == whole + "." + fraction
    ensures AllDigits(whole) && AllDigits(fraction) && |fraction| == x.scale
    ensures DigitsValue(whole) * Pow10(x.scale) + DigitsValue(fraction) == x.mantissa
  {
    var m, p := x.mantissa, Pow10(x.scale);
    ModBound(m, p);
    var q, r := m / p, m % p;
    whole, fraction := NatText(q), PadText(r, x.scale);
    assert Render(x) == whole + "." + fraction;
    DivModSum(m, p);
    assert DigitsValue(whole) == q && DigitsValue(fraction) == r;
  }

  /** Parsing what `toString` printed gives the same number back. */
  lemma ParseRender(x: Decimal)
    requires Canonical(x)
    ensures ParseNumber(Render(x)) == Some(x)
  {
    if x.scale == 0 {
      ParseRenderInteger(x);
    } else {
      ParseRenderFraction(x);
    }
  }

  lemma ParseRenderInteger(x: Decimal)
    requires x.scale == 0
    ensures ParseNumber(Render(x)) == Some(x)
  {
    ParseDigits(NatText(x.mantissa));
  }

  lemma ParseRenderFraction(x: Decimal)
    requires Canonical(x) && x.scale > 0
    ensures ParseNumber(Render(x)) == Some(x)
  {
    var whole, fraction := RenderParts(x);
    ParseDotted(whole, fraction);
    NormalizeCanonical(x);
  }

  /** The value a plain digit append produces: `Number(x.toString() + d)`. */
  function AppendedDigit(x: Decimal, d: Digit): Decimal {
    if x.scale == 0 then Decimal(10 * x.mantissa + d, 0)
    else Normalize(10 * x.mantissa + d, x.scale + 1)
  }

  lemma ParseAppendDigit(x: Decimal, d: Digit)
    requires Canonical(x)
    ensures ParseNumber(Render(x) + [DigitChar(d)]) == Some(AppendedDigit(x, d))
  {
    if x.scale == 0 {
      CharValueOfDigitChar(d);
      ParseAppendInteger(NatText(x.mantissa), DigitChar(d));
    } else {
      ParseAppendFractionDigit(x, d, 10 * x.mantissa + d);
    }
  }

  lemma ParseAppendFractionDigit(x: Decimal, d: Digit, a: nat)
    requires x.scale > 0 && a == 10 * x.mantissa + d
    ensures ParseNumber(Render(x) + [DigitChar(d)]) == Some(Normalize(a, x.scale + 1))
  {
    var c := DigitChar(d);
    CharValueOfDigitChar(d);
    var whole, fraction := RenderParts(x);
    assert Render(x) + [c] == whole + "." + (fraction + [c]);
    ParseDotted(whole, fraction + [c]);
    AppendFractionParts(whole, fraction, c, a);
  }

  lemma ParseAppendInteger(t: string, c: char)
    requires AllDigits(t) && IsDigitChar(c)
    ensures ParseNumber(t + [c]) == Some(Decimal(10 * DigitsValue(t) + CharValue(c), 0))
  {
    DigitsValueSnoc(t, c);
    ParseDigits(t + [c]);
  }

  // The mantissa `a` is a parameter for the same reason as in `ParsePartsOf`.
  lemma AppendFractionParts(whole: string, fraction: string, c: char, a: nat)
    requires AllDigits(whole) && AllDigits(fraction) && IsDigitChar(c)
    requires a == 10 * (DigitsValue(whole) * Pow10(|fraction|) + DigitsValue(fraction)) + CharValue(c)
    ensures ParseParts(whole, fraction + [c]) == Some(Normalize(a, |fraction| + 1))
  {
    var f := fraction + [c];
    var w, v, p := DigitsValue(whole), DigitsValue(fraction), Pow10(|fraction|);
    assert a == w * Pow10(|f|) + DigitsValue(f) by {
      DigitsValueSnoc(fraction, c);
      assert Pow10(|f|) == 10 * p;
      Shifted(w, v, p, CharValue(c));
    }
    ParsePartsOf(whole, f, a);
  }

  lemma Shifted(w: nat, f: nat, p: nat, d: Digit)
    ensures w * (10 * p) + (10 * f + d) == 10 * (w * p + f) + d
  {
  }

  /**
    The value a digit typed right after the decimal point produces:
    `Number(x.toString() + "." + d)`. Only an integer has such a rendering;
    a second point makes the text not a number.
  */
  function AppendedFraction(x: Decimal, d: Digit): Option<Decimal> {
    if x.scale == 0 then Some(Normalize(10 * x.mantissa + d, x.scale + 1)) else None
  }

  lemma ParseAppendFraction(x: Decimal, d: Digit)
    requires Canonical(x)
    ensures ParseNumber(Render(x) + ['.', DigitChar(d)]) == AppendedFraction(x, d)
  {
    if x.scale == 0 {
      PointAfterInteger(x, d);
    } else {
      var whole, fraction := RenderParts(x);
      var tail := fraction + ['.', DigitChar(d)];
      assert Render(x) + ['.', DigitChar(d)] == whole + "." + tail;
      PointInFraction(whole, tail, x.scale);
    }
  }

  lemma PointAfterInteger(x: Decimal, d: Digit)
    requires x.scale == 0
    ensures ParseNumber(NatText(x.mantissa) + ['.', DigitChar(d)]) == Some(Normalize(10 * x.mantissa + d, x.scale + 1))
  {
    var t, c := NatText(x.mantissa), DigitChar(d);
    OneDigitText(d);
    ParseDotted(t, [c]);
    OneFractionParts(t, [c]);
    assert t + ['.', c] == t + "." + [c];
  }

  /** `whole.f` for a single fractional digit `f`. */
  lemma OneFractionParts(whole: string, f: string)
    requires AllDigits(whole) && AllDigits(f) && |f| == 1
    ensures ParseParts(whole, f) == Some(Normalize(10 * DigitsValue(whole) + DigitsValue(f), |f|))
  {
    var w, p := DigitsValue(whole), Pow10(|f|);
    Pow10One(|f|);
    TimesTen(w, p);
  }

  // `n` and `p` below stand for `1` and `10` so the solver sees one fact at a time.
  lemma Pow10One(n: nat)
    requires n == 1
    ensures Pow10(n) == 10
  {
    assert Pow10(n - 1) == 1;
  }

  lemma TimesTen(w: nat, p: nat)
    requires p == 10
    ensures w * p == 10 * w
  {
  }

  lemma OneDigitText(d: Digit)
    ensures AllDigits([DigitChar(d)]) && DigitsValue([DigitChar(d)]) == d
  {
    var c := DigitChar(d);
    CharValueOfDigitChar(d);
    DigitsValueSnoc([], c);
    assert [] + [c] == [c];
  }

  /** Text with a second decimal point is not a number. */
  lemma PointInFraction(whole: string, fraction: string, k: nat)
    requires AllDigits(whole) && k < |fraction| && fraction[k] == '.'
    ensures ParseNumber(whole + "." + fraction).None?
  {
    ParseDotted(whole, fraction);
    assert !IsDigitChar(fraction[k]);
  }

  lemma SplitQuotient(m: real, d: real, p: real)
    requires p >= 1.0
    ensures (10.0 * m + d) / (10.0 * p) == m / p + d / (10.0 * p)
  {
  }

  /** What a plain digit append means as a number. */
  lemma AppendedDigitValue(x: Decimal, d: Digit)
    requires Canonical(x)
    ensures Canonical(AppendedDigit(x, d))
    ensures x.scale == 0 ==> AppendedDigit(x, d) == Decimal(10 * x.mantissa + d, 0)
    ensures x.scale > 0 ==>
      ToReal(AppendedDigit(x, d)) == ToReal(x) + d as real / Pow10(x.scale + 1) as real
  {
    if x.scale > 0 {
      var m, p := x.mantissa as real, Pow10(x.scale) as real;
      var y := AppendedDigit(x, d);
      NormalizeValue(10 * x.mantissa + d, x.scale + 1);
      assert ToReal(y) == (10 * x.mantissa + d) as real / Pow10(x.scale + 1) as real;
      assert Pow10(x.scale + 1) as real == 10.0 * p;
      assert (10 * x.mantissa + d) as real == 10.0 * m + d as real;
      SplitQuotient(m, d as real, p);
    }
  }

  lemma AppendedFractionValue(x: Decimal, d: Digit)
    requires x.scale == 0
    ensures AppendedFraction(x, d).Some?
    ensures ToReal(AppendedFraction(x, d).value) == ToReal(x) + d as real / 10.0
    ensures AppendedFraction(x, d).value.scale == (if d == 0 then 0 else 1)
  {
    var a := 10 * x.mantissa + d;
    assert Pow10(x.scale + 1) == 10 && ToReal(x) == x.mantissa as real;
    if d == 0 {
      assert a % 10 == 0 && a / 10 == x.mantissa;
      assert Normalize(a, x.scale + 1) == Decimal(x.mantissa, 0);
    } else {
      assert a % 10 == d;
      assert Normalize(a, x.scale + 1) == Decimal(a, 1);
    }
  }
}

=== FILE: events.dfy ===
/** The events a user interface sends into the calculator. */
module Events {
  import opened DecimalText
  import opened Arith

  /**
    The tagged union of event kinds: NUMBER carries a digit, UNARY and
    BINARY an operator, DECIMAL and EVALUATE nothing.
  */
  datatype Event =
    | Number(digit: Digit)
    | Unary(uop: UnaryOp)
    | Binary(bop: BinaryOp)
    | DecimalPoint
    | Evaluate
}

=== FILE: findings.dfy ===
/**
  Two places where the calculator does not do what it evidently means to.
  Each is shown twice: the machine as written exhibits the discrepancy on a
  concrete key sequence, and a corrected definition is proved to have the
  intended property for all inputs.

  1. Digit entry rebuilds the operand by printing its number and reading it
     back, which drops a trailing fractional zero. A zero typed right after
     the point is lost (`1.` then `0` reads back as 1), so `1 . 0 5` enters
     15; a zero typed later in the fraction is lost too (`1.5` then `0`
     reads back as 1.5), so `1 . 5 0 5` enters 1.55. The corrected entry
     keeps the mantissa and the count of fractional digits.

  2. `display_result` reuses the transitions of `initial` but keeps the
     context, so a new calculation started after a result inherits the old
     operator and second operand. The corrected step starts the new
     calculation from the empty context.
*/
module Findings {
  import opened Options
  import opened DecimalText
  import opened Arith
  import opened Events
  import opened CalculatorMachine
  import opened Chaining
  import Transitions
  import Scenarios

  // ----------------------------------------------------------------- 1. a zero after the point

  /** As written: a zero right after the point leaves the number as it was. */
  lemma ZeroAfterPointDropped(ctx: Context, slot: Slot, n: nat, us: seq<UnaryOp>)
    ensures Step(Machine(Input(slot, DecimalPending), WithActive(ctx, slot, Operand(Typed(Decimal(n, 0)), true, us))), Number(0))
         == Next(Machine(Input(slot, Plain), WithActive(ctx, slot, Operand(Typed(Decimal(n, 0)), true, us))))
  {
    NormalizeCanonical(Decimal(n, 0));
    assert Normalize(10 * n, 1) == Normalize(n, 0);
  }

  /** The machine typing a first operand, nothing else entered yet. */
  function TypingFirst(mode: Mode, x: Decimal, point: bool): Machine {
    Machine(Input(First, mode), Context(Some(Operand(Typed(x), point, [])), None, None, None))
  }

  lemma TypeOne()
    ensures Step(InitialMachine, Number(1)) == Next(TypingFirst(Plain, Decimal(1, 0), false))
  {
  }

  lemma TypeOnePoint()
    ensures Step(TypingFirst(Plain, Decimal(1, 0), false), DecimalPoint) == Next(TypingFirst(DecimalPending, Decimal(1, 0), true))
  {
  }

  lemma TypeOnePointZero()
    ensures Step(TypingFirst(DecimalPending, Decimal(1, 0), true), Number(0)) == Next(TypingFirst(Plain, Decimal(1, 0), true))
  {
    ZeroAfterPointDropped(EmptyContext, First, 1, []);
  }

  lemma TypeOnePointZeroFive()
    ensures Step(TypingFirst(Plain, Decimal(1, 0), true), Number(5)) == Next(TypingFirst(Plain, Decimal(15, 0), true))
  {
    assert AppendedDigit(Decimal(1, 0), 5) == Decimal(15, 0);
  }

  lemma TypeOnePointZeroFiveRun()
    ensures Run(InitialMachine, [Number(1), DecimalPoint, Number(0), Number(5)]) == Next(TypingFirst(Plain, Decimal(15, 0), true))
  {
    TypeOne();
    TypeOnePoint();
    TypeOnePointZero();
    TypeOnePointZeroFive();
  }

  lemma EvaluateFifteen()
    ensures var o := Step(TypingFirst(Plain, Decimal(15, 0), true), Evaluate);
      o.Next? && o.m.state == DisplayResult && o.m.ctx.result == Some(Finite(15.0))
  {
    assert ReduceOperand(TypingFirst(Plain, Decimal(15, 0), true).ctx.first) == Finite(15.0);
  }

  /** As written: `1 . 0 5 =` shows 15. */
  lemma OnePointZeroFive()
    ensures var o := Run(InitialMachine, [Number(1), DecimalPoint, Number(0), Number(5), Evaluate]);
      o.Next? && o.m.state == DisplayResult && o.m.ctx.result == Some(Finite(15.0))
  {
    TypeOnePointZeroFiveRun();
    EvaluateFifteen();
    RunAppend(InitialMachine, [Number(1), DecimalPoint, Number(0), Number(5)], [Evaluate]);
    assert [Number(1), DecimalPoint, Number(0), Number(5)] + [Evaluate] == [Number(1), DecimalPoint, Number(0), Number(5), Evaluate];
  }

  /**
    As written, the same loss later in the fraction: the plain append reads
    `"1.5" + "0"` back as 1.5, so the zero is gone before the next digit.
  */
  lemma TypeOnePointFive()
    ensures Step(TypingFirst(DecimalPending, Decimal(1, 0), true), Number(5)) == Next(TypingFirst(Plain, Decimal(15, 1), true))
  {
    assert AppendedFraction(Decimal(1, 0), 5) == Some(Decimal(15, 1));
  }

  lemma TypeOnePointFiveZero()
    ensures Step(TypingFirst(Plain, Decimal(15, 1), true), Number(0)) == Next(TypingFirst(Plain, Decimal(15, 1), true))
  {
    assert AppendedDigit(Decimal(15, 1), 0) == Decimal(15, 1);
  }

  lemma TypeOnePointFiveZeroFive()
    ensures Step(TypingFirst(Plain, Decimal(15, 1), true), Number(5)) == Next(TypingFirst(Plain, Decimal(155, 2), true))
  {
    assert AppendedDigit(Decimal(15, 1), 5) == Decimal(155, 2);
  }

  /** As written: `1 . 5 0 5` enters 1.55. */
  lemma MidFractionZeroLost()
    ensures Run(InitialMachine, [Number(1), DecimalPoint, Number(5), Number(0), Number(5)]) == Next(TypingFirst(Plain, Decimal(155, 2), true))
  {
    TypeOne();
    TypeOnePoint();
    TypeOnePointFive();
    TypeOnePointFiveZero();
    TypeOnePointFiveZeroFive();
  }

  lemma EvaluateOnePointFiveFive()
    ensures var o := Step(TypingFirst(Plain, Decimal(155, 2), true), Evaluate);
      o.Next? && o.m.state == DisplayResult && o.m.ctx.result == Some(Finite(1.55))
  {
    assert ReduceOperand(TypingFirst(Plain, Decimal(155, 2), true).ctx.first) == Finite(1.55);
  }

  /** As written: `1 . 5 0 5 =` shows 1.55. */
  lemma OnePointFiveZeroFive()
    ensures var o := Run(InitialMachine, [Number(1), DecimalPoint, Number(5), Number(0), Number(5), Evaluate]);
      o.Next? && o.m.state == DisplayResult && o.m.ctx.result == Some(Finite(1.55))
  {
    MidFractionZeroLost();
    EvaluateOnePointFiveFive();
    RunAppend(InitialMachine, [Number(1), DecimalPoint, Number(5), Number(0), Number(5)], [Evaluate]);
    assert [Number(1), DecimalPoint, Number(5), Number(0), Number(5)] + [Evaluate]
      == [Number(1), DecimalPoint, Number(5), Number(0), Number(5), Evaluate];
  }

  /** Digit entry as it is meant to work: the mantissa typed so far, the digits after the point, and whether a point was typed. */
  datatype Entry = Entry(mantissa: nat, scale: nat, point: bool)

  const EmptyEntry := Entry(0, 0, false)

  function EntryValue(e: Entry): real {
    ToReal(Decimal(e.mantissa, e.scale))
  }

  /** Corrected: a digit after the point becomes one more fractional digit, zero included. */
  function EnterDigit(e: Entry, d: Digit): (r: Entry)
    ensures r.point == e.point
    ensures !e.point ==> r.scale == 0
    ensures e.point ==> r.scale == e.scale + 1
  {
    if e.point then Entry(10 * e.mantissa + d, e.scale + 1, true)
    else Entry(10 * e.mantissa + d, 0, false)
  }

  /** Before the point a digit shifts the whole number left; after it, the digit is worth one more tenth less. */
  lemma EnterDigitValue(e: Entry, d: Digit)
    requires !e.point ==> e.scale == 0
    ensures !e.point ==> EntryValue(EnterDigit(e, d)) == 10.0 * EntryValue(e) + d as real
    ensures e.point ==> EntryValue(EnterDigit(e, d)) == EntryValue(e) + d as real / Pow10(e.scale + 1) as real
  {
    var p := Pow10(e.scale) as real;
    var m := e.mantissa as real;
    if e.point {
      assert Pow10(e.scale + 1) as real == 10.0 * p;
      assert (10 * e.mantissa + d) as real == 10.0 * m + d as real;
      SplitQuotient(m, d as real, p);
    } else {
      assert p == 1.0;
    }
  }

  function EnterPoint(e: Entry): (r: Entry)
    ensures r.point && EntryValue(r) == EntryValue(e)
  {
    e.(point := true)
  }

  function EnterDigits(e: Entry, ds: seq<Digit>): Entry
    decreases |ds|
  {
    if ds == [] then e else EnterDigit(EnterDigits(e, ds[..|ds| - 1]), ds[|ds| - 1])
  }

  lemma {:induction false} EnterWhole(ds: seq<Digit>)
    ensures EnterDigits(EmptyEntry, ds) == Entry(DigitsNat(ds), 0, false)
    decreases |ds|
  {
    if ds != [] {
      var pre, d := ds[..|ds| - 1], ds[|ds| - 1];
      assert ds == pre + [d];
      EnterWhole(pre);
      DigitsNatSnoc(pre, d);
    } else {
      assert DigitsText(ds) == [];
    }
  }

  lemma {:induction false} EnterFraction(n: nat, fs: seq<Digit>)
    ensures EnterDigits(Entry(n, 0, true), fs) == Entry(FracDecimal(n, fs).mantissa, |fs|, true)
    decreases |fs|
  {
    if fs != [] {
      var pre, d := fs[..|fs| - 1], fs[|fs| - 1];
      assert fs == pre + [d];
      EnterFraction(n, pre);
      FracDecimalSnoc(n, pre, d);
    } else {
      FracDecimalEmpty(n);
    }
  }

  /**
    Corrected: whatever digits are typed before and after the point, the
    entry holds exactly the number the typed numeral denotes.
  */
  lemma EntryReadsAsTyped(ds: seq<Digit>, fs: seq<Digit>)
    requires |ds| > 0
    ensures var e := EnterDigits(EnterPoint(EnterDigits(EmptyEntry, ds)), fs);
      ParseNumber(DigitsText(ds) + "." + DigitsText(fs)) == Some(Normalize(e.mantissa, e.scale))
  {
    var n, whole, fraction := DigitsNat(ds), DigitsText(ds), DigitsText(fs);
    EnterWhole(ds);
    assert EnterPoint(EnterDigits(EmptyEntry, ds)) == Entry(n, 0, true);
    EnterFraction(n, fs);
    ParseDotted(whole, fraction);
    ParsePartsOf(whole, fraction, FracDecimal(n, fs).mantissa);
  }

  /** Corrected: without a point the entry is the integer the digits spell. */
  lemma WholeEntryReadsAsTyped(ds: seq<Digit>)
    requires |ds| > 0
    ensures ParseNumber(DigitsText(ds)) == Some(Decimal(EnterDigits(EmptyEntry, ds).mantissa, 0))
  {
    EnterWhole(ds);
    ParseDigits(DigitsText(ds));
  }

  /** The corrected entry of `1 . 0 5` is 1.05. */
  lemma OnePointZeroFiveCorrected()
    ensures EntryValue(EnterDigits(EnterPoint(EnterDigits(EmptyEntry, [1])), [0, 5])) == 1.05
  {
    assert [0, 5][..1] == [0];
    assert [0][..0] == [];
    assert [1][..0] == [];
  }

  lemma OnePointFiveZeroFiveCorrected()
    ensures EntryValue(EnterDigits(EnterPoint(EnterDigits(EmptyEntry, [1])), [5, 0, 5])) == 1.505
  {
    assert [1][..0] == [];
    var e := EnterPoint(EnterDigits(EmptyEntry, [1]));
    assert e == Entry(1, 0, true);
    assert [5][..0] == [];
    assert EnterDigits(e, [5]) == Entry(15, 1, true);
    assert [5, 0][..1] == [5];
    assert EnterDigits(e, [5, 0]) == Entry(150, 2, true);
    assert [5, 0, 5][..2] == [5, 0];
    assert EnterDigits(e, [5, 0, 5]) == Entry(1505, 3, true);
    assert Pow10(3) == 1000;
  }

  // ----------------------------------------------------------------- 2. a calculation after a result

  function IntOperand(n: nat): Operand {
    Operand(Typed(Decimal(n, 0)), false, [])
  }

  /** The context `1 + 2 =` leaves behind. */
  const OnePlusTwo := Context(Some(IntOperand(1)), Some(IntOperand(2)), Some(Add), Some(Finite(3.0)))

  lemma TypeOnePlus()
    ensures Step(TypingFirst(Plain, Decimal(1, 0), false), Binary(Add))
         == Next(Machine(Input(Second, Plain), Context(Some(IntOperand(1)), None, Some(Add), None)))
  {
  }

  lemma TypeOnePlusTwo()
    ensures Step(Machine(Input(Second, Plain), Context(Some(IntOperand(1)), None, Some(Add), None)), Number(2))
         == Next(Machine(Input(Second, Plain), OnePlusTwo.(result := None)))
  {
    assert AppendedDigit(Decimal(0, 0), 2) == Decimal(2, 0);
  }

  lemma EvaluateOnePlusTwo()
    ensures Step(Machine(Input(Second, Plain), OnePlusTwo.(result := None)), Evaluate) == Next(Machine(DisplayResult, OnePlusTwo))
  {
  }

  /** `1 + 2 =` leaves both operands and the operator in the context. */
  lemma OnePlusTwoEquals()
    ensures Run(InitialMachine, [Number(1), Binary(Add), Number(2), Evaluate]) == Next(Machine(DisplayResult, OnePlusTwo))
  {
    TypeOne();
    TypeOnePlus();
    TypeOnePlusTwo();
    EvaluateOnePlusTwo();
  }

  /** The run of `1 + 2 =` followed by more keys continues from its result. */
  lemma AfterOnePlusTwo(rest: seq<Event>)
    ensures Run(InitialMachine, [Number(1), Binary(Add), Number(2), Evaluate] + rest) == Run(Machine(DisplayResult, OnePlusTwo), rest)
  {
    OnePlusTwoEquals();
    RunAppend(InitialMachine, [Number(1), Binary(Add), Number(2), Evaluate], rest);
  }

  lemma FiveAfterOnePlusTwo()
    ensures Step(Machine(DisplayResult, OnePlusTwo), Number(5)) == Next(Machine(Input(First, Plain), OnePlusTwo.(first := Some(IntOperand(5)))))
  {
    Transitions.DigitAtRestTouchesOnlyFirst(Machine(DisplayResult, OnePlusTwo), 5);
  }

  lemma FiveEqualsAfterOnePlusTwo()
    ensures Run(Machine(DisplayResult, OnePlusTwo), [Number(5), Evaluate])
         == Next(Machine(DisplayResult, OnePlusTwo.(first := Some(IntOperand(5)), result := Some(Finite(7.0)))))
  {
    FiveAfterOnePlusTwo();
    var ctx := OnePlusTwo.(first := Some(IntOperand(5)));
    assert GetResult(ctx) == Finite(7.0);
    assert Step(Machine(Input(First, Plain), ctx), Evaluate) == Next(Machine(DisplayResult, ctx.(result := Some(Finite(7.0)))));
  }

  /** As written: `1 + 2 =` then `5 =` shows 7, the stale `+ 2` still applied. */
  lemma StaleOperatorAfterResult()
    ensures var o := Run(InitialMachine, [Number(1), Binary(Add), Number(2), Evaluate, Number(5), Evaluate]);
      o.Next? && o.m.state == DisplayResult && o.m.ctx.result == Some(Finite(7.0))
  {
    AfterOnePlusTwo([Number(5), Evaluate]);
    assert [Number(1), Binary(Add), Number(2), Evaluate] + [Number(5), Evaluate]
      == [Number(1), Binary(Add), Number(2), Evaluate, Number(5), Evaluate];
    FiveEqualsAfterOnePlusTwo();
  }

  lemma PlusAfterOnePlusTwo()
    ensures Step(Machine(DisplayResult, OnePlusTwo), Binary(Add))
         == Next(Machine(Input(Second, Plain), OnePlusTwo.(first := Some(InitialOperand))))
  {
    Transitions.BinaryAtRestKeepsSecond(Machine(DisplayResult, OnePlusTwo), Add);
  }

  lemma ThreeAfterPlus()
    ensures Step(Machine(Input(Second, Plain), OnePlusTwo.(first := Some(InitialOperand))), Number(3))
         == Next(Machine(Input(Second, Plain), OnePlusTwo.(first := Some(InitialOperand), second := Some(IntOperand(23)))))
  {
    assert AppendedDigit(Decimal(2, 0), 3) == Decimal(23, 0);
  }

  lemma EvaluateTwentyThree()
    ensures var ctx := OnePlusTwo.(first := Some(InitialOperand), second := Some(IntOperand(23)));
      Step(Machine(Input(Second, Plain), ctx), Evaluate) == Next(Machine(DisplayResult, ctx.(result := Some(Finite(23.0)))))
  {
    assert GetResult(OnePlusTwo.(first := Some(InitialOperand), second := Some(IntOperand(23)))) == Finite(23.0);
  }

  lemma PlusThreeEqualsAfterOnePlusTwo()
    ensures var o := Run(Machine(DisplayResult, OnePlusTwo), [Binary(Add), Number(3), Evaluate]);
      o.Next? && o.m.state == DisplayResult && o.m.ctx.result == Some(Finite(23.0))
  {
    PlusAfterOnePlusTwo();
    ThreeAfterPlus();
    EvaluateTwentyThree();
  }

  /** As written: `1 + 2 =` then `+ 3 =` shows 23, the 3 appended to the stale second operand. */
  lemma StaleSecondOperandAfterResult()
    ensures var o := Run(InitialMachine, [Number(1), Binary(Add), Number(2), Evaluate, Binary(Add), Number(3), Evaluate]);
      o.Next? && o.m.state == DisplayResult && o.m.ctx.result == Some(Finite(23.0))
  {
    AfterOnePlusTwo([Binary(Add), Number(3), Evaluate]);
    assert [Number(1), Binary(Add), Number(2), Evaluate] + [Binary(Add), Number(3), Evaluate]
      == [Number(1), Binary(Add), Number(2), Evaluate, Binary(Add), Number(3), Evaluate];
    PlusThreeEqualsAfterOnePlusTwo();
  }

  /**
    Corrected: from `display_result` every event but EVALUATE acts on a
    fresh calculator, so nothing of the shown calculation survives it: no
    second operand, no result, and no operator unless the event sets one.
    DECIMAL, which the machine as written ignores there, also clears the
    calculator.
  */
  ghost function RestartStep(m: Machine, e: Event): (o: Outcome)
    ensures m.state == DisplayResult && !e.Evaluate? ==> o.Next? && o.m.state != DisplayResult
    ensures m.state == DisplayResult && !e.Evaluate? && o.Next? ==>
      o.m.ctx.second.None? && o.m.ctx.result.None? && (!e.Binary? ==> o.m.ctx.operator.None?)
  {
    if m.state == DisplayResult && !e.Evaluate? then Step(InitialMachine, e) else Step(m, e)
  }

  ghost function RestartRun(m: Machine, es: seq<Event>): Outcome
    decreases |es|
  {
    if es == [] then Next(m)
    else
      match RestartStep(m, es[0])
      case Throws => Throws
      case Next(m') => RestartRun(m', es[1..])
  }

  /** EVALUATE, if it comes at all, comes last. */
  predicate EvaluateOnlyLast(es: seq<Event>) {
    forall i :: 0 <= i < |es| - 1 ==> !es[i].Evaluate?
  }

  /**
    Away from `display_result` the corrected machine is the machine as
    written, until an EVALUATE brings it there.
  */
  lemma {:induction false} RestartAgrees(m: Machine, es: seq<Event>)
    requires m.state != DisplayResult && EvaluateOnlyLast(es)
    ensures RestartRun(m, es) == Run(m, es)
    decreases |es|
  {
    if es != [] {
      match Step(m, es[0])
      case Throws =>
      case Next(m') =>
        if |es| > 1 {
          assert !es[0].Evaluate?;
          assert m'.state != DisplayResult;
          assert EvaluateOnlyLast(es[1..]) by {
            forall i | 0 <= i < |es[1..]| - 1 ensures !es[1..][i].Evaluate? {
              assert es[1..][i] == es[i + 1];
            }
          }
          RestartAgrees(m', es[1..]);
        }
    }
  }

  /**
    Corrected: after a result, a calculation that does not begin with
    EVALUATE runs exactly as it would on a fresh calculator.
  */
  lemma RestartForgets(m: Machine, es: seq<Event>)
    requires m.state == DisplayResult && es != [] && !es[0].Evaluate? && EvaluateOnlyLast(es)
    ensures RestartRun(m, es) == Run(InitialMachine, es)
  {
    match Step(InitialMachine, es[0])
    case Throws =>
    case Next(m') =>
      assert m'.state != DisplayResult;
      assert EvaluateOnlyLast(es[1..]) by {
        forall i | 0 <= i < |es[1..]| - 1 ensures !es[1..][i].Evaluate? {
          assert es[1..][i] == es[i + 1];
        }
      }
      RestartAgrees(m', es[1..]);
  }

  lemma {:induction false} NoEvaluateInNumbers(ds: seq<Digit>)
    ensures Evaluate !in Numbers(ds)
    decreases |ds|
  {
    if ds != [] {
      NoEvaluateInNumbers(ds[..|ds| - 1]);
    }
  }

  lemma {:induction false} NoEvaluateInUnaries(us: seq<UnaryOp>)
    ensures Evaluate !in Unaries(us)
    decreases |us|
  {
    if us != [] {
      NoEvaluateInUnaries(us[..|us| - 1]);
    }
  }

  lemma NoEvaluateInTerm(t: Term)
    ensures Evaluate !in TermEvents(t)
  {
    NoEvaluateInNumbers(t.digits);
    NoEvaluateInNumbers(t.fraction);
    NoEvaluateInUnaries(t.unary);
  }

  lemma {:induction false} NoEvaluateInLinks(ls: seq<Link>)
    ensures Evaluate !in LinksEvents(ls)
    decreases |ls|
  {
    if ls != [] {
      NoEvaluateInLinks(ls[..|ls| - 1]);
      NoEvaluateInTerm(ls[|ls| - 1].term);
    }
  }

  /** A typed chain followed by EVALUATE: it begins with a digit and EVALUATE comes only at the end. */
  lemma ChainKeys(c: Chain)
    requires ValidChain(c)
    ensures var es := ChainEvents(c) + [Evaluate];
      es != [] && !es[0].Evaluate? && EvaluateOnlyLast(es)
  {
    NoEvaluateInTerm(c.head);
    NoEvaluateInLinks(c.links);
    var es := ChainEvents(c) + [Evaluate];
    var pre := c.head.digits[..|c.head.digits| - 1];
    assert c.head.digits == pre + [c.head.digits[|c.head.digits| - 1]];
    assert es[0] in ChainEvents(c);
    forall i | 0 <= i < |es| - 1 ensures !es[i].Evaluate? {
      assert es[i] in ChainEvents(c);
    }
  }

  /**
    Corrected: after any result, typing a chain and EVALUATE shows the
    chain's left-to-right value, whatever the previous calculation was.
  */
  lemma RestartChainEvaluates(m: Machine, c: Chain)
    requires m.state == DisplayResult && ValidChain(c)
    ensures RestartRun(m, ChainEvents(c) + [Evaluate]).Next?
    ensures var m' := RestartRun(m, ChainEvents(c) + [Evaluate]).m;
      m'.state == DisplayResult && m'.ctx.result == Some(Eval(LeftNested(c)))
  {
    ChainKeys(c);
    RestartForgets(m, ChainEvents(c) + [Evaluate]);
    ChainEvaluates(c);
  }

  /** Corrected: after any result, `5 =` shows 5. */
  lemma FiveAfterResultCorrected(m: Machine)
    requires m.state == DisplayResult
    ensures var o := RestartRun(m, [Number(5), Evaluate]);
      o.Next? && o.m.state == DisplayResult && o.m.ctx.result == Some(Finite(5.0))
  {
    Scenarios.IntTerm(5);
    var c := Chain(Scenarios.Int(5), []);
    ChainSingle(c.head);
    RestartChainEvaluates(m, c);
    assert ChainEvents(c) + [Evaluate] == [Number(5), Evaluate];
  }
}

=== FILE: invariants.dfy ===
/**
  What holds in every machine reachable from the start: typed operands are
  exact canonical decimals, an operand without a decimal point is an
  integer, and the operand an input state edits is present except in one
  case — the second operand right after the first BINARY.
*/
module Invariants {
  import opened Options
  import opened DecimalText
  import opened Arith
  import opened Events
  import opened CalculatorMachine

  ghost predicate OperandOk(o: Operand) {
    && o.value.Typed?
    && Canonical(o.value.lit)
    && (!o.hasDecimal ==> o.value.lit.scale == 0)
  }

  ghost predicate Inv(m: Machine) {
    && (m.ctx.second.Some? ==> OperandOk(m.ctx.second.value))
    && (m.state.Input? && m.state.slot == First ==> m.ctx.first.Some? && OperandOk(m.ctx.first.value))
    && (m.state.Input? && m.state.mode != Plain ==> Active(m.ctx, m.state.slot).Some?)
    && (m.state.Input? && m.state.mode == DecimalPending ==>
          Active(m.ctx, m.state.slot).value.hasDecimal && Active(m.ctx, m.state.slot).value.value.lit.scale == 0)
  }

  lemma InitialInv()
    ensures Inv(InitialMachine)
  {
  }

  lemma DigitOperandOk(d: Digit)
    ensures OperandOk(DigitOperand(d))
  {
  }

  lemma AppendKeepsOk(o: Operand, d: Digit)
    requires OperandOk(o)
    ensures OperandOk(o.(value := AppendDigit(o.value, d)))
  {
    AppendedDigitValue(o.value.lit, d);
  }

  lemma FractionKeepsOk(o: Operand, d: Digit)
    requires OperandOk(o) && o.hasDecimal && o.value.lit.scale == 0
    ensures OperandOk(o.(value := AppendFractionDigit(o.value, d)))
  {
  }

  lemma {:induction false} StepPreservesInv(m: Machine, e: Event)
    requires Inv(m)
    requires Step(m, e).Next?
    ensures Inv(Step(m, e).m)
  {
    if m.state.Input? {
      var slot, mode := m.state.slot, m.state.mode;
      var cur := Active(m.ctx, slot);
      match e
      case Number(d) =>
        DigitOperandOk(d);
        if mode == Plain {
          AppendKeepsOk(cur.GetOr(InitialOperand), d);
        } else if mode == DecimalPending {
          FractionKeepsOk(cur.value, d);
        }
      case _ =>
    }
  }

  /** Every machine the start reaches by events satisfies the invariant. */
  lemma {:induction false} ReachableInv(es: seq<Event>)
    requires Run(InitialMachine, es).Next?
    ensures Inv(Run(InitialMachine, es).m)
    decreases |es|
  {
    if es == [] {
      InitialInv();
    } else {
      var prefix, e := es[..|es| - 1], es[|es| - 1];
      assert es == prefix + [e];
      RunSnoc(InitialMachine, prefix, e);
      ReachableInv(prefix);
      StepPreservesInv(Run(InitialMachine, prefix).m, e);
    }
  }

  /**
    In a well-formed machine a transition throws exactly when UNARY or
    DECIMAL arrives in the plain second-operand state before any digit of
    the second operand.
  */
  lemma ThrowsExactly(m: Machine, e: Event)
    requires Inv(m)
    ensures Step(m, e).Throws? <==>
      m.state == Input(Second, Plain) && m.ctx.second.None? && (e.Unary? || e.DecimalPoint?)
  {
  }

  /** No transition from a first-operand state or a rest state ever throws. */
  lemma FirstOperandNeverThrows(m: Machine, e: Event)
    requires Inv(m)
    requires !m.state.Input? || m.state.slot == First
    ensures Step(m, e).Next?
  {
    ThrowsExactly(m, e);
  }

  /** Digit entry never yields NaN: the operand being typed is always an exact decimal. */
  lemma {:induction false} TypedOperandsStayNumbers(es: seq<Event>)
    requires Run(InitialMachine, es).Next?
    requires Run(InitialMachine, es).m.state.Input?
    requires Active(Run(InitialMachine, es).m.ctx, Run(InitialMachine, es).m.state.slot).Some?
    ensures var m := Run(InitialMachine, es).m;
      NumOf(Active(m.ctx, m.state.slot).value.value).Finite?
  {
    ReachableInv(es);
  }
}

=== FILE: machine.dfy ===
/**
  The calculator state machine: eight states, a context of two operands,
  a pending binary operator and the last result, and a total transition
  function. A transition whose guard is false, or an event a state has no
  handler for, leaves the machine as it is. A transition that dereferences
  an absent operand throws, as the source's non-null assertions do.
*/
module CalculatorMachine {
  import opened Options
  import opened DecimalText
  import opened Arith
  import opened Events

  /**
    What an operand's `value` holds: a number built by typing digits, or a
    number computed by folding the pending expression (operator chaining).
  */
  datatype Value = Typed(lit: Decimal) | Computed(n: Num)

  function NumOf(v: Value): Num {
    match v
    case Typed(x) => Finite(ToReal(x))
    case Computed(n) => n
  }

  /**
    The text `toString` gives for a value. A computed finite value has no
    rendering here: no state reachable from the start appends to one.
  */
  function RenderValue(v: Value): Option<string> {
    match v
    case Typed(x) => Some(Render(x))
    case Computed(NaN) => Some("NaN")
    case Computed(Finite(_)) => None
  }

  /** `Number(value.toString() + suffix)`. */
  function AppendText(v: Value, suffix: string): Value {
    match RenderValue(v)
    case None => Computed(NaN)
    case Some(text) =>
      match ParseNumber(text + suffix)
      case Some(y) => Typed(y)
      case None => Computed(NaN)
  }

  lemma NaNTextIsNotANumber(suffix: string)
    ensures ParseNumber("NaN" + suffix).None?
  {
    var s := "NaN" + suffix;
    assert !IsDigitChar(s[0]);
    var i := PointIndex(s);
    if i < |s| {
      assert i > 0;
      assert s[..i][0] == 'N';
    }
  }

  /** A plain digit append: the digit becomes the last digit of the numeral. */
  function AppendDigit(v: Value, d: Digit): (r: Value)
    ensures v.Typed? && Canonical(v.lit) ==> r == Typed(AppendedDigit(v.lit, d))
    ensures v == Computed(NaN) ==> r == Computed(NaN)
  {
    if v.Typed? && Canonical(v.lit) then ParseAppendDigit(v.lit, d); AppendText(v, [DigitChar(d)])
    else NaNTextIsNotANumber([DigitChar(d)]); AppendText(v, [DigitChar(d)])
  }

  /** A digit right after the point: `Number(value.toString() + "." + d)`. */
  function AppendFractionDigit(v: Value, d: Digit): (r: Value)
    ensures v.Typed? && Canonical(v.lit) && v.lit.scale == 0 ==>
      r == Typed(AppendedFraction(v.lit, d).value)
    ensures v.Typed? && Canonical(v.lit) && v.lit.scale > 0 ==> r == Computed(NaN)
    ensures v == Computed(NaN) ==> r == Computed(NaN)
  {
    if v.Typed? && Canonical(v.lit) then ParseAppendFraction(v.lit, d); AppendText(v, ['.', DigitChar(d)])
    else NaNTextIsNotANumber(['.', DigitChar(d)]); AppendText(v, ['.', DigitChar(d)])
  }

  /** One side of the binary expression being typed. */
  datatype Operand = Operand(value: Value, hasDecimal: bool, unaryOps: seq<UnaryOp>)

  const InitialOperand := Operand(Typed(Decimal(0, 0)), false, [])

  /** A fresh operand holding one typed digit. */
  function DigitOperand(d: Digit): Operand {
    Operand(Typed(Decimal(d, 0)), false, [])
  }

  datatype Context = Context(
    first: Option<Operand>,
    second: Option<Operand>,
    operator: Option<BinaryOp>,
    result: Option<Num>)

  const EmptyContext := Context(None, None, None, None)

  /** Which operand an input state edits. */
  datatype Slot = First | Second

  /** The three variants of an input state. */
  datatype Mode = Plain | DecimalPending | WithUnary

  /**
    The eight states: `initial`, `display_result` and the six
    `input_{first,second}_operand{,_decimal_pending,_with_unary}`.
  */
  datatype State = Initial | Input(slot: Slot, mode: Mode) | DisplayResult

  datatype Machine = Machine(state: State, ctx: Context)

  const InitialMachine := Machine(Initial, EmptyContext)

  /** A transition either produces the next machine or throws. */
  datatype Outcome = Next(m: Machine) | Throws

  function Active(ctx: Context, slot: Slot): Option<Operand> {
    if slot == First then ctx.first else ctx.second
  }

  function WithActive(ctx: Context, slot: Slot, o: Operand): (r: Context)
    ensures Active(r, slot) == Some(o)
    ensures r.operator == ctx.operator && r.result == ctx.result
    ensures slot == First ==> r.second == ctx.second
    ensures slot == Second ==> r.first == ctx.first
  {
    if slot == First then ctx.(first := Some(o)) else ctx.(second := Some(o))
  }

  // ------------------------------------------------------------- reduction

  /** An operand's value folded through its unary operators; 0 when absent. */
  ghost function ReduceOperand(o: Option<Operand>): (n: Num)
    ensures o.None? ==> n == Finite(0.0)
    ensures o.Some? && o.value.unaryOps == [] ==> n == NumOf(o.value.value)
    ensures o.Some? && NumOf(o.value.value).NaN? ==> n.NaN?
  {
    match o
    case None => Finite(0.0)
    case Some(op) => ApplyAll(NumOf(op.value), op.unaryOps)
  }

  /**
    The value of the pending expression, `first operator second`: a missing
    operand counts as 0, and the value is NaN exactly when an operand is NaN
    or a division by zero is pending.
  */
  ghost function GetResult(ctx: Context): (r: Num)
    ensures ctx.operator.None? ==> r == ReduceOperand(ctx.first)
    ensures ctx.operator.None? && ctx.first.None? ==> r == Finite(0.0)
    ensures ctx.operator.Some? && ctx.second.None? ==>
      r == Apply(ctx.operator.value, ReduceOperand(ctx.first), Finite(0.0))
    ensures ReduceOperand(ctx.first).NaN? ==> r.NaN?
    ensures ctx.operator.Some? && ReduceOperand(ctx.second).NaN? ==> r.NaN?
    ensures r.NaN? ==>
      || ReduceOperand(ctx.first).NaN?
      || (ctx.operator.Some? && ReduceOperand(ctx.second).NaN?)
      || (ctx.operator == Some(Divide) && ReduceOperand(ctx.second) == Finite(0.0))
  {
    match ctx.operator
    case None => ReduceOperand(ctx.first)
    case Some(op) => Apply(op, ReduceOperand(ctx.first), ReduceOperand(ctx.second))
  }

  // ------------------------------------------------------------- transitions

  /** The shared EVALUATE transition: store the result, show it. */
  ghost function Evaluated(ctx: Context): Machine {
    Machine(DisplayResult, ctx.(result := Some(GetResult(ctx))))
  }

  /** The transitions of `initial`, which `display_result` reuses verbatim. */
  ghost function AtRest(m: Machine, e: Event): Outcome {
    match e
    case Number(d) =>
      Next(Machine(Input(First, Plain), m.ctx.(first := Some(DigitOperand(d)))))
    case Unary(u) =>
      Next(Machine(Input(First, WithUnary), m.ctx.(first := Some(Operand(Typed(Decimal(0, 0)), false, [u])))))
    case Binary(op) =>
      Next(Machine(Input(Second, Plain), m.ctx.(first := Some(InitialOperand), operator := Some(op))))
    case Evaluate =>
      Next(Evaluated(m.ctx))
    case DecimalPoint =>
      Next(m)  // no DECIMAL handler
  }

  /**
    Whether an input state's handler for `e` reads the operand it edits
    with a non-null assertion: UNARY and DECIMAL always do, NUMBER does
    when a point is pending and when typing the first operand plainly.
  */
  predicate Dereferences(slot: Slot, mode: Mode, e: Event) {
    match e
    case Number(_) => mode == DecimalPending || (mode == Plain && slot == First)
    case Unary(_) => true
    case DecimalPoint => true
    case Binary(_) => false
    case Evaluate => false
  }

  /**
    The transitions of the six input states: the first- and second-operand
    templates, with the NUMBER handler overridden in the decimal-pending and
    with-unary variants.
  */
  ghost function Composing(slot: Slot, mode: Mode, ctx: Context, e: Event): Outcome {
    var here := Machine(Input(slot, mode), ctx);
    var cur := Active(ctx, slot);
    match e
    case Number(d) =>
      if mode == WithUnary then
        Next(Machine(Input(slot, Plain), WithActive(ctx, slot, DigitOperand(d))))
      else if mode == DecimalPending then
        if cur.None? then Throws
        else
          var o := cur.value;
          Next(Machine(Input(slot, Plain), WithActive(ctx, slot, o.(value := AppendFractionDigit(o.value, d)))))
      else if slot == First && cur.None? then
        Throws
      else
        var o := cur.GetOr(InitialOperand);
        Next(Machine(Input(slot, Plain), WithActive(ctx, slot, o.(value := AppendDigit(o.value, d)))))
    case Unary(u) =>
      if cur.None? then Throws
      else
        var o := cur.value;
        Next(Machine(Input(slot, WithUnary), WithActive(ctx, slot, o.(unaryOps := o.unaryOps + [u]))))
    case DecimalPoint =>
      if cur.None? then Throws
      else if cur.value.hasDecimal then Next(here)  // guard false
      else Next(Machine(Input(slot, DecimalPending), WithActive(ctx, slot, cur.value.(hasDecimal := true))))
    case Binary(op) =>
      if slot == First then
        Next(Machine(Input(Second, Plain), ctx.(operator := Some(op))))
      else
        Next(Machine(Input(Second, Plain), ctx.(
          first := Some(Operand(Computed(GetResult(ctx)), false, [])),
          second := Some(InitialOperand),
          operator := Some(op))))
    case Evaluate =>
      Next(Evaluated(ctx))
  }

  /**
    At rest (`initial` or `display_result`) no event throws and none
    touches the second operand; only EVALUATE shows a result. A digit
    starts a first operand holding it, and BINARY starts the second
    operand against a first operand of 0.
  */
  lemma AtRestShape(m: Machine, e: Event)
    ensures AtRest(m, e).Next?
    ensures var m' := AtRest(m, e).m;
      && (m'.state == DisplayResult <==> e.Evaluate? || (e.DecimalPoint? && m.state == DisplayResult))
      && m'.ctx.second == m.ctx.second
      && (!e.Evaluate? ==> m'.ctx.result == m.ctx.result)
    ensures e.Number? ==> var m' := AtRest(m, e).m;
      m'.state == Input(First, Plain) && ReduceOperand(m'.ctx.first) == Finite(e.digit as real)
    ensures e.Unary? ==> AtRest(m, e).m.state == Input(First, WithUnary)
    ensures e.Binary? ==> var m' := AtRest(m, e).m;
      && m'.state == Input(Second, Plain) && m'.ctx.operator == Some(e.bop)
      && ReduceOperand(m'.ctx.first) == Finite(0.0)
  {
  }

  /**
    In an input state an event throws exactly when its handler dereferences
    the absent operand it edits. Every event but EVALUATE stays in an input
    state; every event but BINARY and EVALUATE keeps the slot, the operator
    and the other operand. BINARY moves to the second operand, folding the
    pending expression into the first when the second was being typed.
  */
  lemma ComposingShape(slot: Slot, mode: Mode, ctx: Context, e: Event)
    ensures Composing(slot, mode, ctx, e).Throws? <==> Active(ctx, slot).None? && Dereferences(slot, mode, e)
    ensures var o := Composing(slot, mode, ctx, e);
      o.Next? && !e.Evaluate? ==> o.m.state.Input?
    ensures var o := Composing(slot, mode, ctx, e);
      o.Next? && !e.Binary? && !e.Evaluate? ==>
        && o.m.state.slot == slot && o.m.ctx.operator == ctx.operator
        && (slot == First ==> o.m.ctx.second == ctx.second)
        && (slot == Second ==> o.m.ctx.first == ctx.first)
    ensures var o := Composing(slot, mode, ctx, e);
      o.Next? && e.Unary? ==> o.m.state.mode == WithUnary
    ensures var o := Composing(slot, mode, ctx, e);
      o.Next? && e.DecimalPoint? ==> Active(o.m.ctx, slot).Some? && Active(o.m.ctx, slot).value.hasDecimal
    ensures e.Number? && mode == WithUnary ==>
      Active(Composing(slot, mode, ctx, e).m.ctx, slot) == Some(DigitOperand(e.digit))
    ensures e.Binary? ==> var o := Composing(slot, mode, ctx, e);
      && o.Next? && o.m.state == Input(Second, Plain) && o.m.ctx.operator == Some(e.bop)
      && (slot == First ==> o.m.ctx.first == ctx.first && o.m.ctx.second == ctx.second)
      && (slot == Second ==> ReduceOperand(o.m.ctx.first) == GetResult(ctx) && o.m.ctx.second == Some(InitialOperand))
  {
  }

  /**
    One transition of the machine. Whatever the state and event: only
    EVALUATE writes `result` and reaches `display_result`, every other
    event that leaves `display_result` leaves it unchanged, and a throw
    happens only in an input state whose operand is absent.
  */
  ghost function Step(m: Machine, e: Event): (o: Outcome)
    ensures o.Next? && !e.Evaluate? ==> o.m.ctx.result == m.ctx.result
    ensures o.Next? && e.Evaluate? ==> o.m.state == DisplayResult && o.m.ctx.result.Some?
    ensures o.Next? && !e.Evaluate? && o.m.state == DisplayResult ==> o.m == m
    ensures o.Throws? ==> m.state.Input? && Active(m.ctx, m.state.slot).None?
  {
    match m.state
    case Initial => AtRest(m, e)
    case DisplayResult => AtRest(m, e)
    case Input(slot, mode) => Composing(slot, mode, m.ctx, e)
  }

  /** Feeds events one at a time, each to the machine the previous one left. */
  ghost function Run(m: Machine, es: seq<Event>): Outcome
    decreases |es|
  {
    if es == [] then Next(m)
    else
      match Step(m, es[0])
      case Throws => Throws
      case Next(m') => Run(m', es[1..])
  }

  /** One more event after an outcome. */
  ghost function Then(o: Outcome, e: Event): Outcome {
    match o
    case Throws => Throws
    case Next(m) => Step(m, e)
  }

  lemma {:induction false} RunSnoc(m: Machine, es: seq<Event>, e: Event)
    ensures Run(m, es + [e]) == Then(Run(m, es), e)
    decreases |es|
  {
    if es == [] {
      assert [] + [e] == [e];
    } else {
      assert (es + [e])[0] == es[0] && (es + [e])[1..] == es[1..] + [e];
      match Step(m, es[0])
      case Throws =>
      case Next(m') => RunSnoc(m', es[1..], e);
    }
  }
}

=== FILE: options.dfy ===
/** The optional values the calculator's context uses where the source writes `T | null`. */
module Options {

  datatype Option<+T> = None | Some(value: T) {

    /** The held value, or `default` when there is none (the source's `??`). */
    function GetOr(default: T): T {
      match this
      case Some(v) => v
      case None => default
    }
  }
}

=== FILE: scenarios.dfy ===
/**
  Whole key sequences, from the initial machine to the value on display.
  The first group follows the repository's own test cases; the second shows
  behaviour those tests do not cover: the left-to-right order of
  evaluation, crashes, the percent key, division by zero and the decimal
  entry quirk. Most are instances of the chain theorem.
*/
module Scenarios {
  import opened Options
  import opened DecimalText
  import opened Arith
  import opened Events
  import opened CalculatorMachine
  import opened Chaining
  import Transitions

  // ----------------------------------------------------------------- terms

  function Int(d: Digit): Term {
    Term([d], false, [], [])
  }

  /** `w.f`, one digit on each side of the point. */
  function Dec(w: Digit, f: Digit): Term {
    Term([w], true, [f], [])
  }

  lemma DigitsNatOne(d: Digit)
    ensures DigitsNat([d]) == d
  {
    DigitsNatSnoc([], d);
    assert [] + [d] == [d];
  }

  lemma NumbersOne(d: Digit)
    ensures Numbers([d]) == [Number(d)]
  {
    assert [d][..0] == [];
  }

  lemma IntTerm(d: Digit)
    ensures ValidTerm(Int(d)) && TermEvents(Int(d)) == [Number(d)]
    ensures TermValue(Int(d)) == Finite(d as real)
  {
    IntTermEvents(d);
    IntTermDecimal(d);
    IntTermValue(d);
  }

  lemma IntTermEvents(d: Digit)
    ensures ValidTerm(Int(d)) && TermEvents(Int(d)) == [Number(d)]
  {
    NumbersOne(d);
    assert [Number(d)] + [] + [] == [Number(d)];
  }

  lemma IntTermDecimal(d: Digit)
    ensures TermDecimal(Int(d)) == Decimal(d, 0)
  {
    DigitsNatOne(d);
    FracDecimalEmpty(d);
  }

  lemma IntTermValue(d: Digit)
    requires TermDecimal(Int(d)) == Decimal(d, 0)
    ensures TermValue(Int(d)) == Finite(d as real)
  {
  }

  lemma DecTerm(w: Digit, f: Digit)
    requires f != 0
    ensures ValidTerm(Dec(w, f)) && TermEvents(Dec(w, f)) == [Number(w), DecimalPoint, Number(f)]
    ensures TermValue(Dec(w, f)) == Finite((10 * w + f) as real / 10.0)
  {
    DecTermEvents(w, f);
    DecTermDecimal(w, f);
    DecTermValue(w, f);
  }

  lemma DecTermEvents(w: Digit, f: Digit)
    requires f != 0
    ensures ValidTerm(Dec(w, f)) && TermEvents(Dec(w, f)) == [Number(w), DecimalPoint, Number(f)]
  {
    NumbersOne(w);
    NumbersOne(f);
  }

  lemma DecTermDecimal(w: Digit, f: Digit)
    ensures TermDecimal(Dec(w, f)) == Decimal(10 * w + f, 1)
  {
    DigitsNatOne(w);
    FracDecimalEmpty(w);
    FracDecimalSnoc(w, [], f);
    assert [] + [f] == [f];
  }

  lemma DecTermValue(w: Digit, f: Digit)
    requires f != 0 && TermDecimal(Dec(w, f)) == Decimal(10 * w + f, 1)
    ensures TermValue(Dec(w, f)) == Finite((10 * w + f) as real / 10.0)
  {
  }

  /** A term followed by unary operators. */
  lemma WithUnaries(t: Term, us: seq<UnaryOp>)
    requires t.unary == []
    ensures TermEvents(t.(unary := us)) == TermEvents(t) + Unaries(us)
    ensures TermValue(t.(unary := us)) == ApplyAll(TermValue(t), us)
  {
    WithUnariesEvents(t, us);
    WithUnariesValue(t, us);
  }

  lemma WithUnariesEvents(t: Term, us: seq<UnaryOp>)
    requires t.unary == []
    ensures TermEvents(t.(unary := us)) == TermEvents(t) + Unaries(us)
  {
    assert TermEvents(t) == Numbers(t.digits) + PointEvents(t) + [];
  }

  lemma WithUnariesValue(t: Term, us: seq<UnaryOp>)
    requires t.unary == []
    ensures TermValue(t.(unary := us)) == ApplyAll(TermValue(t), us)
  {
    assert TermDecimal(t.(unary := us)) == TermDecimal(t);
    assert TermValue(t) == ApplyAll(Finite(ToReal(TermDecimal(t))), []);
  }

  lemma PairChain(a: Term, op: BinaryOp, b: Term)
    ensures ChainEvents(Chain(a, [Link(op, b)])) == TermEvents(a) + [Binary(op)] + TermEvents(b)
    ensures LeftNested(Chain(a, [Link(op, b)])) == Node(op, Leaf(a), Leaf(b))
  {
    var l := Link(op, b);
    ChainSingle(a);
    ChainSnoc(a, [], l);
    assert [] + [l] == [l];
  }

  lemma PairValid(a: Term, op: BinaryOp, b: Term)
    requires ValidTerm(a) && ValidTerm(b)
    ensures ValidChain(Chain(a, [Link(op, b)]))
  {
    assert Chain(a, [Link(op, b)]).links[0] == Link(op, b);
  }

  /** `a op b =`, for the key sequence `es` it spells, showing `v`. */
  lemma Pair(a: Term, op: BinaryOp, b: Term, es: seq<Event>, v: Num)
    requires ValidTerm(a) && ValidTerm(b)
    requires es == TermEvents(a) + [Binary(op)] + TermEvents(b) + [Evaluate]
    requires v == Apply(op, TermValue(a), TermValue(b))
    ensures var o := Run(InitialMachine, es);
      o.Next? && o.m.state == DisplayResult && o.m.ctx.result == Some(v)
  {
    PairChain(a, op, b);
    PairValid(a, op, b);
    ChainEvaluates(Chain(a, [Link(op, b)]));
  }

  lemma TripleChain(a: Term, op1: BinaryOp, b: Term, op2: BinaryOp, c: Term)
    ensures ChainEvents(Chain(a, [Link(op1, b), Link(op2, c)]))
      == TermEvents(a) + [Binary(op1)] + TermEvents(b) + [Binary(op2)] + TermEvents(c)
    ensures LeftNested(Chain(a, [Link(op1, b), Link(op2, c)])) == Node(op2, Node(op1, Leaf(a), Leaf(b)), Leaf(c))
  {
    var l1, l2 := Link(op1, b), Link(op2, c);
    PairChain(a, op1, b);
    ChainSnoc(a, [l1], l2);
    assert [l1] + [l2] == [l1, l2];
  }

  lemma TripleValid(a: Term, op1: BinaryOp, b: Term, op2: BinaryOp, c: Term)
    requires ValidTerm(a) && ValidTerm(b) && ValidTerm(c)
    ensures ValidChain(Chain(a, [Link(op1, b), Link(op2, c)]))
  {
    var ch := Chain(a, [Link(op1, b), Link(op2, c)]);
    assert ch.links[0] == Link(op1, b) && ch.links[1] == Link(op2, c);
  }

  /** `a op1 b op2 c =`, for the key sequence `es` it spells, showing `v`. */
  lemma Triple(a: Term, op1: BinaryOp, b: Term, op2: BinaryOp, c: Term, es: seq<Event>, v: Num)
    requires ValidTerm(a) && ValidTerm(b) && ValidTerm(c)
    requires es == TermEvents(a) + [Binary(op1)] + TermEvents(b) + [Binary(op2)] + TermEvents(c) + [Evaluate]
    requires v == Apply(op2, Apply(op1, TermValue(a), TermValue(b)), TermValue(c))
    ensures var o := Run(InitialMachine, es);
      o.Next? && o.m.state == DisplayResult && o.m.ctx.result == Some(v)
  {
    TripleChain(a, op1, b, op2, c);
    TripleValid(a, op1, b, op2, c);
    assert Eval(Node(op1, Leaf(a), Leaf(b))) == Apply(op1, TermValue(a), TermValue(b));
    ChainEvaluates(Chain(a, [Link(op1, b), Link(op2, c)]));
  }

  /** The keys `es`, pressed on a fresh calculator, do not throw and leave it in state `s`. */
  ghost predicate Reaches(es: seq<Event>, s: State) {
    Run(InitialMachine, es).Next? && Run(InitialMachine, es).m.state == s
  }

  /** The machine once the first term `a` is typed, for the key sequence `es` it spells. */
  lemma FirstTermState(a: Term, es: seq<Event>)
    requires ValidTerm(a) && es == TermEvents(a)
    ensures Run(InitialMachine, es) == Next(Machine(Input(First, TermMode(a)), WithActive(EmptyContext, First, TermOperand(a))))
  {
    TypeTerm(InitialMachine, First, a);
  }

  /** The machine once `a op` is typed: waiting for the second operand, which is still absent. */
  lemma OperatorState(a: Term, op: BinaryOp, es: seq<Event>)
    requires ValidTerm(a) && es == TermEvents(a) + [Binary(op)]
    ensures Run(InitialMachine, es) ==
      Next(Machine(Input(Second, Plain), WithActive(EmptyContext, First, TermOperand(a)).(operator := Some(op))))
  {
    FirstTermState(a, TermEvents(a));
    RunAppend(InitialMachine, TermEvents(a), [Binary(op)]);
  }

  /** The state once `a op b` is typed: the second-operand state of `b`'s mode. */
  lemma SecondTermState(a: Term, op: BinaryOp, b: Term, es: seq<Event>)
    requires ValidTerm(a) && ValidTerm(b) && es == TermEvents(a) + [Binary(op)] + TermEvents(b)
    ensures Run(InitialMachine, es).Next? && Run(InitialMachine, es).m.state == Input(Second, TermMode(b))
  {
    var es1 := TermEvents(a) + [Binary(op)];
    OperatorState(a, op, es1);
    var m1 := Run(InitialMachine, es1).m;
    TypeTerm(m1, Second, b);
    RunAppend(InitialMachine, es1, TermEvents(b));
  }

  // ----------------------------------------------------------------- the repository's cases

  lemma OnePlusOne()
    ensures Reaches([Number(1)], Input(First, Plain))
    ensures Reaches([Number(1), Binary(Add)], Input(Second, Plain))
    ensures Reaches([Number(1), Binary(Add), Number(1)], Input(Second, Plain))
    ensures var o := Run(InitialMachine, [Number(1), Binary(Add), Number(1), Evaluate]);
      o.Next? && o.m.state == DisplayResult && o.m.ctx.result == Some(Finite(2.0))
  {
    IntTerm(1);
    Pair(Int(1), Add, Int(1), [Number(1), Binary(Add), Number(1), Evaluate], Finite(2.0));
  }

  lemma OneEquals()
    ensures Reaches([Number(1)], Input(First, Plain))
    ensures var o := Run(InitialMachine, [Number(1), Evaluate]);
      o.Next? && o.m.state == DisplayResult && o.m.ctx.result == Some(Finite(1.0))
  {
  }

  /** EVALUATE on a fresh calculator shows 0: an absent operand counts as 0. */
  lemma EqualsAlone()
    ensures var o := Run(InitialMachine, [Evaluate]);
      o.Next? && o.m.state == DisplayResult && o.m.ctx.result == Some(Finite(0.0))
  {
  }

  /** Decimal operands are added exactly; the floating-point rounding of the source is not modelled. */
  lemma DecimalSum()
    ensures Reaches([Number(1), DecimalPoint, Number(2)], Input(First, Plain))
    ensures Reaches([Number(1), DecimalPoint, Number(2), Binary(Add)], Input(Second, Plain))
    ensures Reaches([Number(1), DecimalPoint, Number(2), Binary(Add), Number(1), DecimalPoint, Number(1)], Input(Second, Plain))
    ensures var o := Run(InitialMachine, [Number(1), DecimalPoint, Number(2), Binary(Add), Number(1), DecimalPoint, Number(1), Evaluate]);
      o.Next? && o.m.state == DisplayResult && o.m.ctx.result == Some(Finite(2.3))
  {
    DecimalSumStates();
    DecimalSumResult();
  }

  lemma DecimalSumStates()
    ensures Reaches([Number(1), DecimalPoint, Number(2)], Input(First, Plain))
    ensures Reaches([Number(1), DecimalPoint, Number(2), Binary(Add)], Input(Second, Plain))
    ensures Reaches([Number(1), DecimalPoint, Number(2), Binary(Add), Number(1), DecimalPoint, Number(1)], Input(Second, Plain))
  {
    DecTerm(1, 2);
    DecTerm(1, 1);
    FirstTermState(Dec(1, 2), [Number(1), DecimalPoint, Number(2)]);
    OperatorState(Dec(1, 2), Add, [Number(1), DecimalPoint, Number(2), Binary(Add)]);
    SecondTermState(Dec(1, 2), Add, Dec(1, 1), [Number(1), DecimalPoint, Number(2), Binary(Add), Number(1), DecimalPoint, Number(1)]);
  }

  lemma DecimalSumResult()
    ensures var o := Run(InitialMachine, [Number(1), DecimalPoint, Number(2), Binary(Add), Number(1), DecimalPoint, Number(1), Evaluate]);
      o.Next? && o.m.state == DisplayResult && o.m.ctx.result == Some(Finite(2.3))
  {
    DecTerm(1, 2);
    DecTerm(1, 1);
    Pair(Dec(1, 2), Add, Dec(1, 1),
         [Number(1), DecimalPoint, Number(2), Binary(Add), Number(1), DecimalPoint, Number(1), Evaluate], Finite(2.3));
  }

  /** `w.f x²` */
  lemma SquaredDecEvents(w: Digit, f: Digit)
    requires f != 0
    ensures var t := Dec(w, f).(unary := [Square]);
      ValidTerm(t) && TermEvents(t) == [Number(w), DecimalPoint, Number(f), Unary(Square)]
  {
    DecTermEvents(w, f);
    assert Unaries([Square]) == [Unary(Square)] by { assert [Square][..0] == []; }
    WithUnaries(Dec(w, f), [Square]);
  }

  /** A term with value `y`, squared once, has value `y * y`. */
  lemma SquaredTerm(t: Term, y: real)
    requires t.unary == [] && TermValue(t) == Finite(y)
    ensures TermValue(t.(unary := [Square])) == Finite(y * y)
  {
    WithUnariesValue(t, [Square]);
    SquareOnce(y);
  }

  lemma SquareOnce(y: real)
    ensures ApplyAll(Finite(y), [Square]) == Finite(y * y)
  {
    assert [Square][0] == Square && [Square][1..] == [];
    assert ApplyAll(Finite(y), [Square]) == ApplyAll(ApplyUnary(Finite(y), Square), []);
  }

  lemma SquaredDecimalSumStates()
    ensures Reaches([Number(1), DecimalPoint, Number(2), Unary(Square)], Input(First, WithUnary))
    ensures Reaches([Number(1), DecimalPoint, Number(2), Unary(Square), Binary(Add)], Input(Second, Plain))
    ensures Reaches([Number(1), DecimalPoint, Number(2), Unary(Square), Binary(Add),
                                 Number(1), DecimalPoint, Number(1), Unary(Square)], Input(Second, WithUnary))
  {
    SquaredFirstState();
    SquaredOperatorState();
    SquaredSecondState();
  }

  lemma SquaredFirstState()
    ensures Reaches([Number(1), DecimalPoint, Number(2), Unary(Square)], Input(First, WithUnary))
  {
    SquaredDecEvents(1, 2);
    FirstTermState(Dec(1, 2).(unary := [Square]), [Number(1), DecimalPoint, Number(2), Unary(Square)]);
  }

  lemma SquaredOperatorState()
    ensures Reaches([Number(1), DecimalPoint, Number(2), Unary(Square), Binary(Add)], Input(Second, Plain))
  {
    SquaredDecEvents(1, 2);
    OperatorState(Dec(1, 2).(unary := [Square]), Add, [Number(1), DecimalPoint, Number(2), Unary(Square), Binary(Add)]);
  }

  lemma SquaredSecondState()
    ensures Reaches([Number(1), DecimalPoint, Number(2), Unary(Square), Binary(Add),
                                 Number(1), DecimalPoint, Number(1), Unary(Square)], Input(Second, WithUnary))
  {
    SquaredDecEvents(1, 2);
    SquaredDecEvents(1, 1);
    SecondTermState(Dec(1, 2).(unary := [Square]), Add, Dec(1, 1).(unary := [Square]),
                    [Number(1), DecimalPoint, Number(2), Unary(Square), Binary(Add),
                     Number(1), DecimalPoint, Number(1), Unary(Square)]);
  }

  lemma SquaredDecimalSumResult()
    ensures var o := Run(InitialMachine, [Number(1), DecimalPoint, Number(2), Unary(Square), Binary(Add),
                                          Number(1), DecimalPoint, Number(1), Unary(Square), Evaluate]);
      o.Next? && o.m.state == DisplayResult && o.m.ctx.result == Some(Finite(2.65))
  {
    var a, b := Dec(1, 2).(unary := [Square]), Dec(1, 1).(unary := [Square]);
    SquaredDecEvents(1, 2);
    SquaredDecEvents(1, 1);
    DecTerm(1, 2);
    DecTerm(1, 1);
    SquaredTerm(Dec(1, 2), 1.2);
    SquaredTerm(Dec(1, 1), 1.1);
    Pair(a, Add, b, [Number(1), DecimalPoint, Number(2), Unary(Square), Binary(Add),
                     Number(1), DecimalPoint, Number(1), Unary(Square), Evaluate], Finite(2.65));
  }

  /** `1.2 x² + 1.1 x² =`: each state the keys pass through, and 2.65 on display. */
  lemma SquaredDecimalSum()
    ensures Reaches([Number(1), DecimalPoint, Number(2), Unary(Square)], Input(First, WithUnary))
    ensures Reaches([Number(1), DecimalPoint, Number(2), Unary(Square), Binary(Add)], Input(Second, Plain))
    ensures Reaches([Number(1), DecimalPoint, Number(2), Unary(Square), Binary(Add),
                                 Number(1), DecimalPoint, Number(1), Unary(Square)], Input(Second, WithUnary))
    ensures var o := Run(InitialMachine, [Number(1), DecimalPoint, Number(2), Unary(Square), Binary(Add),
                                          Number(1), DecimalPoint, Number(1), Unary(Square), Evaluate]);
      o.Next? && o.m.state == DisplayResult && o.m.ctx.result == Some(Finite(2.65))
  {
    SquaredDecimalSumStates();
    SquaredDecimalSumResult();
  }

  lemma TwoTimesThree()
    ensures var o := Run(InitialMachine, [Number(2), Binary(Multiply), Number(3), Evaluate]);
      o.Next? && o.m.state == DisplayResult && o.m.ctx.result == Some(Finite(6.0))
  {
    IntTerm(2);
    IntTerm(3);
    Pair(Int(2), Multiply, Int(3), [Number(2), Binary(Multiply), Number(3), Evaluate], Finite(6.0));
  }

  lemma ThreeSquares()
    ensures Unaries(Squares(3)) == [Unary(Square), Unary(Square), Unary(Square)]
  {
    assert Squares(3) == [Square, Square, Square];
    assert Squares(3)[..2] == [Square, Square];
    assert [Square, Square][..1] == [Square];
    assert [Square][..0] == [];
  }

  /** Squaring three times raises to the eighth power. */
  lemma RepeatedSquare()
    ensures Reaches([Number(2), Unary(Square), Unary(Square), Unary(Square)], Input(First, WithUnary))
    ensures var o := Run(InitialMachine, [Number(2), Unary(Square), Unary(Square), Unary(Square), Evaluate]);
      o.Next? && o.m.state == DisplayResult && o.m.ctx.result == Some(Finite(256.0))
  {
    IntTerm(2);
    var t := Int(2).(unary := Squares(3));
    WithUnaries(Int(2), Squares(3));
    ThreeSquares();
    RepeatedSquaring(2.0, 3);
    assert Power(2.0, Pow2(3)) == 256.0;
    ChainSingle(t);
    ChainEvaluates(Chain(t, []));
    TypeTerm(InitialMachine, First, t);
    assert [Number(2)] + [Unary(Square), Unary(Square), Unary(Square)] + [Evaluate]
      == [Number(2), Unary(Square), Unary(Square), Unary(Square), Evaluate];
  }

  /** A digit after squaring starts a new first operand. */
  lemma SquaresThenNewOperand()
    ensures Reaches([Number(2), Unary(Square), Unary(Square), Unary(Square)], Input(First, WithUnary))
    ensures var o := Run(InitialMachine, [Number(2), Unary(Square), Unary(Square), Unary(Square),
                                          Number(3), Binary(Add), Number(3), Evaluate]);
      o.Next? && o.m.state == DisplayResult && o.m.ctx.result == Some(Finite(6.0))
  {
    RepeatedSquare();
    SquaresThenNewOperandResult();
  }

  lemma SquaresThenNewOperandResult()
    ensures var o := Run(InitialMachine, [Number(2), Unary(Square), Unary(Square), Unary(Square),
                                          Number(3), Binary(Add), Number(3), Evaluate]);
      o.Next? && o.m.state == DisplayResult && o.m.ctx.result == Some(Finite(6.0))
  {
    IntTerm(2);
    IntTerm(3);
    WithUnaries(Int(2), Squares(3));
    ThreeSquares();
    OvertypedPair(Int(2).(unary := Squares(3)), Int(3), Add, Int(3),
                  [Number(2), Unary(Square), Unary(Square), Unary(Square), Number(3), Binary(Add), Number(3), Evaluate],
                  Finite(6.0));
  }

  /** A term ending in unary operators, typed over by `a op b =`, which then shows `v`. */
  lemma OvertypedPair(t: Term, a: Term, op: BinaryOp, b: Term, es: seq<Event>, v: Num)
    requires |t.digits| > 0 && t.unary != [] && ValidTerm(a) && ValidTerm(b)
    requires es == TermEvents(t) + TermEvents(a) + [Binary(op)] + TermEvents(b) + [Evaluate]
    requires v == Apply(op, TermValue(a), TermValue(b))
    ensures var o := Run(InitialMachine, es);
      o.Next? && o.m.state == DisplayResult && o.m.ctx.result == Some(v)
  {
    var rest := [Binary(op)] + TermEvents(b) + [Evaluate];
    Overtype(InitialMachine, First, t, a, rest);
    Pair(a, op, b, TermEvents(a) + rest, v);
    assert es == TermEvents(t) + TermEvents(a) + rest;
  }

  lemma TwoPlusTwoPlusTwo()
    ensures var o := Run(InitialMachine, [Number(2), Binary(Add), Number(2), Binary(Add), Number(2), Evaluate]);
      o.Next? && o.m.state == DisplayResult && o.m.ctx.result == Some(Finite(6.0))
  {
    IntTerm(2);
    Triple(Int(2), Add, Int(2), Add, Int(2), [Number(2), Binary(Add), Number(2), Binary(Add), Number(2), Evaluate], Finite(6.0));
  }

  lemma SquaredInTheMiddleTerms()
    ensures var b := Int(2).(unary := [Square, Square]);
      && ValidTerm(Int(2)) && ValidTerm(b) && TermValue(Int(2)) == Finite(2.0) && TermValue(b) == Finite(16.0)
      && TermEvents(Int(2)) + [Binary(Add)] + TermEvents(b) + [Binary(Add)] + TermEvents(Int(2)) + [Evaluate]
         == [Number(2), Binary(Add), Number(2), Unary(Square), Unary(Square), Binary(Add), Number(2), Evaluate]
  {
    IntTerm(2);
    WithUnaries(Int(2), [Square, Square]);
    assert Unaries([Square, Square]) == [Unary(Square), Unary(Square)] by {
      assert [Square, Square][..1] == [Square];
      assert [Square][..0] == [];
    }
  }

  /** `2 + 2 x² x² + 2 = 20`: squaring applies to the operand being typed, not to the sum so far. */
  lemma SquaredInTheMiddle()
    ensures var o := Run(InitialMachine, [Number(2), Binary(Add), Number(2), Unary(Square), Unary(Square),
                                          Binary(Add), Number(2), Evaluate]);
      o.Next? && o.m.state == DisplayResult && o.m.ctx.result == Some(Finite(20.0))
  {
    SquaredInTheMiddleTerms();
    Triple(Int(2), Add, Int(2).(unary := [Square, Square]), Add, Int(2),
           [Number(2), Binary(Add), Number(2), Unary(Square), Unary(Square), Binary(Add), Number(2), Evaluate], Finite(20.0));
  }

  lemma SquareThenDigitTerms()
    ensures var t := Int(3).(unary := [Square]);
      && ValidTerm(t) && ValidTerm(Int(4)) && ValidTerm(Int(2)) && t.unary != []
      && TermValue(Int(4)) == Finite(4.0) && TermValue(Int(2)) == Finite(2.0)
      && TermEvents(t) + TermEvents(Int(4)) + ([Binary(Add)] + TermEvents(Int(2)) + [Evaluate])
         == [Number(3), Unary(Square), Number(4), Binary(Add), Number(2), Evaluate]
      && TermEvents(Int(4)) + ([Binary(Add)] + TermEvents(Int(2)) + [Evaluate])
         == TermEvents(Int(4)) + [Binary(Add)] + TermEvents(Int(2)) + [Evaluate]
  {
    IntTerm(3);
    IntTerm(4);
    IntTerm(2);
    WithUnaries(Int(3), [Square]);
    assert Unaries([Square]) == [Unary(Square)] by { assert [Square][..0] == []; }
  }

  /** `3 x² 4 + 2 = 6`: the squared 3 is discarded by the digit 4. */
  lemma SquareThenDigit()
    ensures var o := Run(InitialMachine, [Number(3), Unary(Square), Number(4), Binary(Add), Number(2), Evaluate]);
      o.Next? && o.m.state == DisplayResult && o.m.ctx.result == Some(Finite(6.0))
  {
    SquareThenDigitTerms();
    Overtype(InitialMachine, First, Int(3).(unary := [Square]), Int(4), [Binary(Add)] + TermEvents(Int(2)) + [Evaluate]);
    Pair(Int(4), Add, Int(2), TermEvents(Int(4)) + ([Binary(Add)] + TermEvents(Int(2)) + [Evaluate]), Finite(6.0));
  }

  /** After `a op` the machine waits for the second operand. */
  lemma AfterOperator(a: Term, op: BinaryOp) returns (mb: Machine)
    requires |a.digits| > 0
    ensures Run(InitialMachine, TermEvents(a) + [Binary(op)]) == Next(mb) && ReadyFor(mb, Second)
  {
    var es := TermEvents(a);
    TermEventsEditing(a);
    TermEventsFirst(a);
    FirstDigitStep(InitialMachine, First, a.digits[0]);
    assert forall i :: 0 <= i < |es[1..]| ==> Editing(es[1..][i]) by {
      forall i | 0 <= i < |es[1..]| ensures Editing(es[1..][i]) {
        assert es[1..][i] == es[i + 1];
      }
    }
    var mode, o := EditRun(EmptyContext, First, Plain, Integer(a.digits[0], []), es[1..]);
    var ma := Machine(Input(First, mode), WithActive(EmptyContext, First, o));
    assert Run(InitialMachine, es) == Next(ma);
    RunAppend(InitialMachine, es, [Binary(op)]);
    Transitions.BinaryStartsSecondOperand(ma, op);
    mb := Machine(Input(Second, Plain), ma.ctx.(operator := Some(op)));
  }

  /** The same as `Overtype`, for a term typed as the second operand of `a op`. */
  lemma OvertypeSecond(a: Term, op: BinaryOp, t1: Term, t2: Term, rest: seq<Event>)
    requires |a.digits| > 0 && |t1.digits| > 0 && t1.unary != [] && |t2.digits| > 0
    ensures Run(InitialMachine, TermEvents(a) + [Binary(op)] + TermEvents(t1) + TermEvents(t2) + rest)
         == Run(InitialMachine, TermEvents(a) + [Binary(op)] + TermEvents(t2) + rest)
  {
    var head := TermEvents(a) + [Binary(op)];
    var mb := AfterOperator(a, op);
    Overtype(mb, Second, t1, t2, rest);
    assert head + TermEvents(t1) + TermEvents(t2) + rest == head + (TermEvents(t1) + TermEvents(t2) + rest);
    assert head + TermEvents(t2) + rest == head + (TermEvents(t2) + rest);
    RunAppend(InitialMachine, head, TermEvents(t1) + TermEvents(t2) + rest);
    RunAppend(InitialMachine, head, TermEvents(t2) + rest);
  }

  lemma SquareThenDigitInSecondTerms()
    ensures var t := Int(3).(unary := [Square]);
      && ValidTerm(Int(1)) && ValidTerm(t) && ValidTerm(Int(4)) && ValidTerm(Int(2)) && t.unary != []
      && TermValue(Int(1)) == Finite(1.0) && TermValue(Int(4)) == Finite(4.0) && TermValue(Int(2)) == Finite(2.0)
      && TermEvents(Int(1)) + [Binary(Add)] + TermEvents(t) + TermEvents(Int(4)) + ([Binary(Add)] + TermEvents(Int(2)) + [Evaluate])
         == [Number(1), Binary(Add), Number(3), Unary(Square), Number(4), Binary(Add), Number(2), Evaluate]
      && TermEvents(Int(1)) + [Binary(Add)] + TermEvents(Int(4)) + ([Binary(Add)] + TermEvents(Int(2)) + [Evaluate])
         == TermEvents(Int(1)) + [Binary(Add)] + TermEvents(Int(4)) + [Binary(Add)] + TermEvents(Int(2)) + [Evaluate]
  {
    IntTerm(1);
    SquareThenDigitTerms();
  }

  /** `1 + 3 x² 4 + 2 = 7`: the same in the second operand. */
  lemma SquareThenDigitInSecond()
    ensures var o := Run(InitialMachine, [Number(1), Binary(Add), Number(3), Unary(Square), Number(4),
                                          Binary(Add), Number(2), Evaluate]);
      o.Next? && o.m.state == DisplayResult && o.m.ctx.result == Some(Finite(7.0))
  {
    SquareThenDigitInSecondTerms();
    OvertypeSecond(Int(1), Add, Int(3).(unary := [Square]), Int(4), [Binary(Add)] + TermEvents(Int(2)) + [Evaluate]);
    Triple(Int(1), Add, Int(4), Add, Int(2),
           TermEvents(Int(1)) + [Binary(Add)] + TermEvents(Int(4)) + ([Binary(Add)] + TermEvents(Int(2)) + [Evaluate]), Finite(7.0));
  }

  /** Points typed after the operand already has one are ignored. */
  lemma {:induction false} PointsIgnored(m: Machine, k: nat, rest: seq<Event>)
    requires m.state.Input? && Active(m.ctx, m.state.slot).Some? && Active(m.ctx, m.state.slot).value.hasDecimal
    ensures Run(m, seq(k, _ => DecimalPoint) + rest) == Run(m, rest)
    decreases k
  {
    if k > 0 {
      Transitions.DecimalGuard(m);
      var es := seq(k, _ => DecimalPoint) + rest;
      assert es[0] == DecimalPoint;
      assert es[1..] == seq(k - 1, _ => DecimalPoint) + rest;
      PointsIgnored(m, k - 1, rest);
    } else {
      assert seq(k, _ => DecimalPoint) + rest == rest;
    }
  }

  /** Extra points after a first operand that has its point are ignored. */
  lemma PointsIgnoredInFirst(t: Term, k: nat, rest: seq<Event>)
    requires ValidTerm(t) && t.point
    ensures Run(InitialMachine, TermEvents(t) + seq(k, _ => DecimalPoint) + rest) == Run(InitialMachine, TermEvents(t) + rest)
  {
    TypeTerm(InitialMachine, First, t);
    var m1 := Machine(Input(First, TermMode(t)), WithActive(EmptyContext, First, TermOperand(t)));
    assert TermEvents(t) + seq(k, _ => DecimalPoint) + rest == TermEvents(t) + (seq(k, _ => DecimalPoint) + rest);
    RunAppend(InitialMachine, TermEvents(t), seq(k, _ => DecimalPoint) + rest);
    PointsIgnored(m1, k, rest);
    RunAppend(InitialMachine, TermEvents(t), rest);
  }

  lemma TwoPointTwoThree()
    ensures var a := Term([2], true, [2, 3], []);
      ValidTerm(a) && TermValue(a) == Finite(2.23)
  {
    var a := Term([2], true, [2, 3], []);
    assert ValidTerm(a);
    DigitsNatOne(2);
    FracDecimalEmpty(2);
    FracDecimalSnoc(2, [], 2);
    assert [] + [2] == [2];
    FracDecimalSnoc(2, [2], 3);
    assert [2] + [3] == [2, 3];
  }

  lemma RedundantPointsTyped()
    ensures TermEvents(Dec(2, 2)) + seq(4, _ => DecimalPoint) + [Number(3), Binary(Add), Number(3), Evaluate]
         == [Number(2), DecimalPoint, Number(2), DecimalPoint, DecimalPoint, DecimalPoint,
             DecimalPoint, Number(3), Binary(Add), Number(3), Evaluate]
  {
    DecTermEvents(2, 2);
  }

  lemma RedundantPointsRead()
    ensures TermEvents(Dec(2, 2)) + [Number(3), Binary(Add), Number(3), Evaluate]
         == TermEvents(Term([2], true, [2, 3], [])) + [Binary(Add)] + TermEvents(Int(3)) + [Evaluate]
  {
    DecTermEvents(2, 2);
    IntTermEvents(3);
    assert TermEvents(Term([2], true, [2, 3], [])) == TermEvents(Dec(2, 2)) + [Number(3)] by {
      assert Numbers([2, 3]) == Numbers([2]) + [Number(3)] by { assert [2, 3][..1] == [2]; }
      NumbersOne(2);
    }
  }

  /** `2.2....3 + 3 = 5.23`: the extra points change nothing. */
  lemma RedundantPoints()
    ensures var o := Run(InitialMachine, [Number(2), DecimalPoint, Number(2), DecimalPoint, DecimalPoint, DecimalPoint,
                                          DecimalPoint, Number(3), Binary(Add), Number(3), Evaluate]);
      o.Next? && o.m.state == DisplayResult && o.m.ctx.result == Some(Finite(5.23))
  {
    DecTermEvents(2, 2);
    IntTerm(3);
    TwoPointTwoThree();
    RedundantPointsTyped();
    RedundantPointsRead();
    PointsIgnoredInFirst(Dec(2, 2), 4, [Number(3), Binary(Add), Number(3), Evaluate]);
    Pair(Term([2], true, [2, 3], []), Add, Int(3), TermEvents(Dec(2, 2)) + [Number(3), Binary(Add), Number(3), Evaluate], Finite(5.23));
  }

  // ----------------------------------------------------------------- beyond the repository's cases

  lemma NoPrecedenceTerms()
    ensures && ValidTerm(Int(1)) && ValidTerm(Int(2)) && ValidTerm(Int(3))
      && TermValue(Int(1)) == Finite(1.0) && TermValue(Int(2)) == Finite(2.0) && TermValue(Int(3)) == Finite(3.0)
      && TermEvents(Int(1)) + [Binary(Add)] + TermEvents(Int(2)) + [Binary(Multiply)] + TermEvents(Int(3)) + [Evaluate]
         == [Number(1), Binary(Add), Number(2), Binary(Multiply), Number(3), Evaluate]
  {
    IntTerm(1);
    IntTerm(2);
    IntTerm(3);
  }

  /** `1 + 2 × 3 = 9`: no operator takes precedence; each one applies to everything before it. */
  lemma NoPrecedence()
    ensures var o := Run(InitialMachine, [Number(1), Binary(Add), Number(2), Binary(Multiply), Number(3), Evaluate]);
      o.Next? && o.m.state == DisplayResult && o.m.ctx.result == Some(Finite(9.0))
  {
    NoPrecedenceTerms();
    Triple(Int(1), Add, Int(2), Multiply, Int(3), [Number(1), Binary(Add), Number(2), Binary(Multiply), Number(3), Evaluate], Finite(9.0));
  }

  /** The percent key is accepted and recorded but leaves the value unchanged. */
  lemma PercentLeavesValue()
    ensures var o := Run(InitialMachine, [Number(5), Unary(Percent), Evaluate]);
      o.Next? && o.m.state == DisplayResult && o.m.ctx.result == Some(Finite(5.0))
  {
    var t := Int(5).(unary := [Percent]);
    IntTerm(5);
    WithUnaries(Int(5), [Percent]);
    assert Unaries([Percent]) == [Unary(Percent)] by { assert [Percent][..0] == []; }
    assert ApplyAll(Finite(5.0), [Percent]) == Finite(5.0) by {
      assert [Percent][1..] == [];
    }
    ChainSingle(t);
    ChainEvaluates(Chain(t, []));
    assert [Number(5)] + [Unary(Percent)] + [Evaluate] == [Number(5), Unary(Percent), Evaluate];
  }

  /** Division by zero yields the non-finite value. */
  lemma DivideByZero()
    ensures var o := Run(InitialMachine, [Number(1), Binary(Divide), Number(0), Evaluate]);
      o.Next? && o.m.state == DisplayResult && o.m.ctx.result == Some(NaN)
  {
    IntTerm(1);
    IntTerm(0);
    Pair(Int(1), Divide, Int(0), [Number(1), Binary(Divide), Number(0), Evaluate], NaN);
  }

  /** A unary operator or a point right after the binary operator dereferences the absent second operand. */
  lemma CrashAfterOperator()
    ensures Run(InitialMachine, [Number(1), Binary(Add), Unary(Root)]) == Throws
    ensures Run(InitialMachine, [Number(1), Binary(Add), DecimalPoint]) == Throws
  {
  }

  /**
    An operator on a fresh calculator sets the operator while the second
    operand stays absent: "operator present iff second operand present"
    does not hold.
  */
  lemma OperatorWithoutSecondOperand()
    ensures var o := Run(InitialMachine, [Binary(Add)]);
      o.Next? && o.m.state == Input(Second, Plain) && o.m.ctx.operator == Some(Add) && o.m.ctx.second.None?
  {
  }
}

=== FILE: transitions.dfy ===
/**
  The transition rules, one lemma each: what every event does in every
  state, stated as the change it makes and the parts it leaves alone.
*/
module Transitions {
  import opened Options
  import opened DecimalText
  import opened Arith
  import opened Events
  import opened CalculatorMachine

  /** EVALUATE, from any state, stores the expression's value and changes nothing else. */
  lemma EvaluateChangesOnlyResult(m: Machine)
    ensures Step(m, Evaluate).Next?
    ensures Step(m, Evaluate).m.state == DisplayResult
    ensures Step(m, Evaluate).m.ctx == m.ctx.(result := Some(GetResult(m.ctx)))
  {
  }

  /** Re-evaluating a shown result computes the same value again. */
  lemma {:induction false} EvaluateIdempotent(m: Machine)
    ensures Run(m, [Evaluate, Evaluate]) == Run(m, [Evaluate])
  {
    var m1 := Evaluated(m.ctx);
    assert Step(m, Evaluate) == Next(m1);
    assert GetResult(m1.ctx) == GetResult(m.ctx) by {
      assert m1.ctx.first == m.ctx.first && m1.ctx.second == m.ctx.second;
      assert m1.ctx.operator == m.ctx.operator;
    }
    assert Step(m1, Evaluate) == Next(m1);
    assert [Evaluate, Evaluate][1..] == [Evaluate];
    assert [Evaluate][1..] == [];
  }

  /**
    DECIMAL is guarded by the active operand's flag: when the flag is set the
    event changes nothing, not even the state; otherwise it sets the flag and
    moves to the decimal-pending variant.
  */
  lemma DecimalGuard(m: Machine)
    requires m.state.Input? && Active(m.ctx, m.state.slot).Some?
    ensures var o := Active(m.ctx, m.state.slot).value;
      o.hasDecimal <==> Step(m, DecimalPoint) == Next(m)
    ensures var o := Active(m.ctx, m.state.slot).value;
      !o.hasDecimal ==>
        Step(m, DecimalPoint) ==
        Next(Machine(Input(m.state.slot, DecimalPending), WithActive(m.ctx, m.state.slot, o.(hasDecimal := true))))
  {
    var o := Active(m.ctx, m.state.slot).value;
    if !o.hasDecimal {
      var m' := Machine(Input(m.state.slot, DecimalPending), WithActive(m.ctx, m.state.slot, o.(hasDecimal := true)));
      assert Active(m'.ctx, m.state.slot).value.hasDecimal;
      assert m' != m;
    }
  }

  /** A second DECIMAL is always absorbed, in every state. */
  lemma {:induction false} DecimalIdempotent(m: Machine)
    requires Step(m, DecimalPoint).Next?
    ensures Step(Step(m, DecimalPoint).m, DecimalPoint) == Step(m, DecimalPoint)
  {
    var m1 := Step(m, DecimalPoint).m;
    if m.state.Input? {
      DecimalGuard(m);
      assert m1.state.Input? && m1.state.slot == m.state.slot;
      DecimalGuard(m1);
    }
  }

  /**
    A digit in a with-unary state discards the operand's unary operators and
    decimal flag: the operand restarts at that digit.
  */
  lemma DigitAfterUnaryRestarts(m: Machine, d: Digit)
    requires m.state.Input? && m.state.mode == WithUnary
    ensures Step(m, Number(d)).Next?
    ensures var m' := Step(m, Number(d)).m;
      && m'.state == Input(m.state.slot, Plain)
      && Active(m'.ctx, m.state.slot) == Some(Operand(Typed(Decimal(d, 0)), false, []))
      && ReduceOperand(Active(m'.ctx, m.state.slot)) == Finite(d as real)
  {
  }

  /**
    A digit in a decimal-pending state becomes the first fractional digit of
    an integer operand, keeps its flag and unary operators, and returns to
    the plain input state.
  */
  lemma DigitAfterPoint(m: Machine, d: Digit)
    requires m.state.Input? && m.state.mode == DecimalPending
    requires Active(m.ctx, m.state.slot).Some?
    requires var v := Active(m.ctx, m.state.slot).value.value;
      v.Typed? && v.lit.scale == 0
    ensures Step(m, Number(d)).Next?
    ensures var o := Active(m.ctx, m.state.slot).value;
      var m' := Step(m, Number(d)).m;
      && m'.state == Input(m.state.slot, Plain)
      && Active(m'.ctx, m.state.slot).Some?
      && Active(m'.ctx, m.state.slot).value.hasDecimal == o.hasDecimal
      && Active(m'.ctx, m.state.slot).value.unaryOps == o.unaryOps
      && NumOf(Active(m'.ctx, m.state.slot).value.value) == Finite(ToReal(o.value.lit) + d as real / 10.0)
  {
    var x := Active(m.ctx, m.state.slot).value.value.lit;
    AppendedFractionValue(x, d);
  }

  /**
    A digit in a plain input state is appended to the operand's numeral: an
    integer gains a last digit, a fraction a last fractional digit.
  */
  lemma DigitAppends(m: Machine, d: Digit)
    requires m.state.Input? && m.state.mode == Plain
    requires Active(m.ctx, m.state.slot).Some?
    requires var v := Active(m.ctx, m.state.slot).value.value;
      v.Typed? && Canonical(v.lit)
    ensures Step(m, Number(d)).Next?
    ensures var o := Active(m.ctx, m.state.slot).value;
      var x := o.value.lit;
      var m' := Step(m, Number(d)).m;
      && m'.state == m.state
      && Active(m'.ctx, m.state.slot) == Some(o.(value := Typed(AppendedDigit(x, d))))
      && (x.scale == 0 ==> NumOf(Active(m'.ctx, m.state.slot).value.value) == Finite(10.0 * ToReal(x) + d as real))
      && (x.scale > 0 ==>
            NumOf(Active(m'.ctx, m.state.slot).value.value) ==
            Finite(ToReal(x) + d as real / Pow10(x.scale + 1) as real))
  {
    var x := Active(m.ctx, m.state.slot).value.value.lit;
    DigitAppendsStep(m, d);
    if x.scale == 0 {
      IntegerDigitValue(x, d);
    } else {
      FractionDigitValue(x, d);
    }
  }

  lemma DigitAppendsStep(m: Machine, d: Digit)
    requires m.state.Input? && m.state.mode == Plain
    requires Active(m.ctx, m.state.slot).Some?
    requires var v := Active(m.ctx, m.state.slot).value.value;
      v.Typed? && Canonical(v.lit)
    ensures Step(m, Number(d)).Next?
    ensures var o := Active(m.ctx, m.state.slot).value;
      var m' := Step(m, Number(d)).m;
      m'.state == m.state && Active(m'.ctx, m.state.slot) == Some(o.(value := Typed(AppendedDigit(o.value.lit, d))))
  {
  }

  /** A digit appended to an integer shifts it one place. */
  lemma IntegerDigitValue(x: Decimal, d: Digit)
    requires Canonical(x) && x.scale == 0
    ensures NumOf(Typed(AppendedDigit(x, d))) == Finite(10.0 * ToReal(x) + d as real)
  {
    AppendedDigitValue(x, d);
  }

  /** A digit appended to a fraction with `s` places adds `d / 10^(s+1)`. */
  lemma FractionDigitValue(x: Decimal, d: Digit)
    requires Canonical(x) && x.scale > 0
    ensures NumOf(Typed(AppendedDigit(x, d))) == Finite(ToReal(x) + d as real / Pow10(x.scale + 1) as real)
  {
    AppendedDigitValue(x, d);
  }

  /**
    BINARY while the second operand is being typed folds the pending
    expression into the first operand, resets the second and stores the new
    operator; the machine stays in the plain second-operand state.
  */
  lemma BinaryChains(m: Machine, op: BinaryOp)
    requires m.state.Input? && m.state.slot == Second
    ensures Step(m, Binary(op)).Next?
    ensures var m' := Step(m, Binary(op)).m;
      && m'.state == Input(Second, Plain)
      && m'.ctx.first == Some(Operand(Computed(GetResult(m.ctx)), false, []))
      && m'.ctx.second == Some(InitialOperand)
      && m'.ctx.operator == Some(op)
      && m'.ctx.result == m.ctx.result
      && ReduceOperand(m'.ctx.first) == GetResult(m.ctx)
      && GetResult(m'.ctx) == Apply(op, GetResult(m.ctx), Finite(0.0))
  {
  }

  /**
    BINARY while the first operand is being typed only stores the operator;
    the first operand is kept as typed.
  */
  lemma BinaryStartsSecondOperand(m: Machine, op: BinaryOp)
    requires m.state.Input? && m.state.slot == First
    ensures Step(m, Binary(op)) == Next(Machine(Input(Second, Plain), m.ctx.(operator := Some(op))))
  {
  }

  /** `display_result` reacts to every event exactly as `initial` does, except that it stays put on DECIMAL. */
  lemma DisplayResultActsAsInitial(ctx: Context, e: Event)
    ensures e != DecimalPoint ==> Step(Machine(DisplayResult, ctx), e) == Step(Machine(Initial, ctx), e)
    ensures Step(Machine(DisplayResult, ctx), DecimalPoint) == Next(Machine(DisplayResult, ctx))
    ensures Step(Machine(Initial, ctx), DecimalPoint) == Next(Machine(Initial, ctx))
  {
  }

  /**
    From a rest state NUMBER replaces only the first operand: the operator,
    the second operand and the result keep whatever they held.
  */
  lemma DigitAtRestTouchesOnlyFirst(m: Machine, d: Digit)
    requires m.state == Initial || m.state == DisplayResult
    ensures Step(m, Number(d)) ==
      Next(Machine(Input(First, Plain), m.ctx.(first := Some(Operand(Typed(Decimal(d, 0)), false, [])))))
  {
  }

  /** From a rest state BINARY replaces the first operand with 0 and sets the operator; the second operand is kept. */
  lemma BinaryAtRestKeepsSecond(m: Machine, op: BinaryOp)
    requires m.state == Initial || m.state == DisplayResult
    ensures Step(m, Binary(op)).Next?
    ensures var m' := Step(m, Binary(op)).m;
      && m'.state == Input(Second, Plain)
      && m'.ctx == m.ctx.(first := Some(InitialOperand), operator := Some(op))
  {
  }
}
